=== FILE: README.md ===
# TGA codec model

A Dafny model of the core of a Truevision TGA image codec. The codec is a C++
raster plugin with four parts:

- **the packed on-disk structures** (`tgahdr.h`): the 18-byte header, made of
  the ID length, colour-map type, image type, 5-byte colour-map specification
  and 10-byte image specification, and the 26-byte TGA 2.0 footer;
- **the vocabulary** (`tga.h`): image-type codes, the RLE control-byte
  constants, origin-corner codes, and the encoder's configuration fields with
  their constructor defaults and setters;
- **the decoder** `TGARaster::Create` and `LoadTGAHeader` (`Tga.cpp`):
  - header loading and the image-ID skip;
  - pixel-layout selection from the depth and the descriptor's alpha bits;
  - colour-map reading;
  - the grey ramp for black-and-white types;
  - the origin corner taken from the descriptor;
  - dispatch on the image type to the uncompressed row reader or the RLE
    packet loop;
- **the encoder** `TGAEncoder::Start`, `WriteRLE<T>` and
  `TGAEncoder::WriteLineRaw` (`TgaWrite.cpp`): the fixed header it writes, the
  layout it selects, the row compressor, and where each line lands in the
  output (uncompressed lines in slots filled bottom-up, RLE lines appended).

Modules, one file each:

| module | file | contents |
|---|---|---|
| `Results` | results.dfy | `Option` and `Result` |
| `Bytes` | bytes.dfy | byte and word types; little-endian words, signed 16-bit and 32-bit values; C casts; `Flatten`, `Copies`, `Chunk` |
| `TgaHdr` | tgahdr.dfy | header, colour-map spec, image spec and footer, each as a byte image with its parser |
| `Tga` | tga.dfy | image types, control byte, descriptor fields, encoder configuration |
| `Layout` | layout.dfy | the depth/alpha switch shared by both directions, and its channel masks |
| `Rle` | rle.dfy | the row compressor as written, the packet loop, and their round trip |
| `Decoder` | decoder.dfy | `LoadHeader`, `ReadPalette`, `GreyPalette`, `DescriptorFlip`, `ReadRawRows`, `Create` |
| `Encoder` | encoder.dfy | `Start`, `WriteLineRaw`, and the placement of a whole session's lines |
| `RoundTrip` | roundtrip.dfy | what a session writes, and what the decoder makes of it |

The model represents streams as follows:

- The decoder reads the whole file as a byte sequence, with an `isOpen` flag.
- Each decoding stage consumes a prefix and passes the rest on.
- The encoder's output is a map from stream position to byte.
- `Put` at a position overwrites exactly the bytes it writes.
- The predicates `Holds` (these bytes are there) and `Confined` (nothing else
  changed) state what a write did.

Some values come from the library's raster-format class, which is not part of
this model. The model takes them as parameters:

- the row size in bytes, `rowBytes`;
- the layout in force before a call, `prior`.

## Model

| member | source | states |
|---|---|---|
| Bytes.WordRoundTrip | tgahdr.h:22-23 | An unsigned 16-bit field is read back from its two bytes, low byte first. |
| Bytes.WordBytesRoundTrip | tgahdr.h:22-23 | Every pair of bytes is the image of the word parsed from it. |
| Bytes.Int16RoundTrip | tgahdr.h:9-12 | Every value in -32768..32767 survives its two little-endian two's-complement bytes, and every byte pair is the image of some value. |
| Bytes.Int16BitsRoundTrip | tgahdr.h:9-12 | Signed 16-bit values and 16-bit patterns correspond one to one. |
| Bytes.DwordRoundTrip | tgahdr.h:46-47 | A 32-bit footer offset is read back from its four little-endian bytes. |
| Bytes.DwordBytesRoundTrip | tgahdr.h:46-47 | Every four bytes are the image of the double word parsed from them. |
| Bytes.WrapInt16 | TgaWrite.cpp:26-27 | `int16(x)` agrees with x modulo 2^16 and is x itself on -32768..32767. |
| Bytes.WrapUint8 | TgaWrite.cpp:28 | `uint8(bpp)` agrees with bpp modulo 256 and is bpp itself on 0..255. |
| TgaHdr.ImageSpecBytes | tgahdr.h:8-19 | The image spec is 10 bytes: x and y origin, width and height as little-endian int16 at 0, 2, 4 and 6, depth at 8, descriptor at 9. |
| TgaHdr.ImageSpecRoundTrip | tgahdr.h:8-19 | Parsing the image spec's bytes gives the spec back. |
| TgaHdr.ImageSpecBytesRoundTrip | tgahdr.h:8-19 | Every 10-byte string is the image of the spec parsed from it. |
| TgaHdr.ColorMapSpecBytes | tgahdr.h:21-29 | The colour-map spec is 5 bytes: first entry and length as little-endian words, then the entry size. |
| TgaHdr.ColorMapSpecRoundTrip | tgahdr.h:21-29 | Parsing the colour-map spec's bytes gives the spec back. |
| TgaHdr.ColorMapSpecBytesRoundTrip | tgahdr.h:21-29 | Every 5-byte string is the image of the spec parsed from it. |
| TgaHdr.HeaderBytes | tgahdr.h:31-43 | The header is 18 bytes with no padding: ID length at 0, colour-map type at 1, image type at 2, colour-map spec at 3..8, image spec at 8..18. |
| TgaHdr.HeaderRoundTrip | tgahdr.h:31-43 | Parsing any header's bytes gives that header back. |
| TgaHdr.HeaderBytesRoundTrip | tgahdr.h:4-6 | Every 18-byte string is the image of the header parsed from it: under `pack(1)` no byte is padding. |
| TgaHdr.FooterBytes | tgahdr.h:45-53 | The footer is 26 bytes: two little-endian 32-bit offsets at 0 and 4, then the 18-byte signature. |
| TgaHdr.FooterRoundTrip | tgahdr.h:45-53 | Parsing a footer's bytes gives the footer back. |
| TgaHdr.FooterBytesRoundTrip | tgahdr.h:45-53 | Every 26-byte string is the image of the footer parsed from it. |
| Tga.ImageTypeOf | tga.h:10-18 | A header byte names an image type exactly when it is that type's code; every other byte names none. |
| Tga.TypeCodeRoundTrip | tga.h:10-18 | Every image type is recovered from its code. |
| Tga.RleVariant | tga.h:10-18 | Each RLE code is its uncompressed counterpart's code plus 8, and black-and-white stays black-and-white. |
| Tga.ImageTypeCodes | tga.h:10-18 | The codes split into 0 (no data), 1..3 (uncompressed) and 9..11 (RLE). |
| Tga.ControlBitsPartition | tga.h:20-21 | The repeat bit 0x80 and the count mask 0x7F are disjoint and together cover the byte. |
| Tga.ControlByteFields | Tga.cpp:253-254 | `c & 0x80` is set exactly for a repeat packet, `c & 0x7F` is the count field, and the two rebuild the byte. |
| Tga.CountField | Tga.cpp:254 | The count field is in 0..127. |
| Tga.DescriptorFor | tga.h:23-28 | The descriptor for a corner carries that corner's code in bits 4..7 and no alpha bits. |
| Tga.DescriptorShift | TgaWrite.cpp:29 | The descriptor for a corner is its code shifted left by 4. |
| Tga.TopLeftDescriptor | TgaWrite.cpp:29 | `TGA_TOP_LEFT << 4` is 0x20. |
| Tga.OriginField | Tga.cpp:190 | The origin field `descriptor >> 4` is in 0..15. |
| Tga.AlphaBits | Tga.cpp:131 | The alpha-bit count `descriptor & 0x0F` is in 0..15. |
| Tga.DescriptorFields | Tga.cpp:131 | `descriptor >> 4` and `descriptor & 0x0F` are the origin and alpha fields, and together they rebuild the byte. |
| Tga.NewEncoderConfig | tga.h:75 | The constructor stores bpp, grayscale and RLE as given, and alpha is off. |
| Tga.DefaultEncoderConfig | tga.h:75 | The defaults are 32 bits per pixel, no grayscale, no RLE, no alpha. |
| Tga.SetBpp | tga.h:71 | `Bpp` sets the depth and leaves the other three fields unchanged. |
| Tga.SetMono | tga.h:72 | `Mono` sets the grayscale flag and leaves the other three fields unchanged. |
| Tga.SetRle | tga.h:73 | `RLE` sets the RLE flag and leaves the other three fields unchanged. |
| Tga.SettersIndependent | tga.h:71-73 | The setters commute with one another, and a second call to the same setter overrides the first. |
| Tga.SettersKeepAlphaOff | tga.h:68-75 | No setter turns alpha on, so `hasAlpha` is false in every configuration a caller can build. |
| Layout.SelectLayout | Tga.cpp:137-158 | Depths 8, 16, 24 and 32 select a layout of that many bits per pixel. An alpha channel is present exactly when alpha was asked for at depth 32 or 16. Depth 16 gives RGB555 exactly without alpha. Any other depth keeps the prior layout. |
| Layout.SelectedMasksWellFormed | TgaWrite.cpp:33-54 | The channel masks are disjoint. At 32 and 24 bits blue, green and red are bytes 0, 1 and 2. At 32 bits alpha is byte 3 when asked for, otherwise it is absent. At 16 bits without alpha blue, green and red are bits 0-4, 5-9 and 10-14. |
| Decoder.LoadHeader | Tga.cpp:85-110 | Loading fails when the stream is closed, when fewer than 18 bytes are present, or when the image ID is cut short. Otherwise it yields the header parsed from bytes 0..18 and the bytes after the ID. |
| Decoder.LoadHeaderRoundTrip | Tga.cpp:92-105 | A header written out and followed by its image ID loads back unchanged, and the rest of the stream is untouched. |
| Decoder.LoadBareHeader | Tga.cpp:98-109 | With no image ID, pixel data starts right after the 18 header bytes. |
| Decoder.ReadPalette | Tga.cpp:160-182 | The colour map is read when its length is nonzero, whatever the colour-map type byte says. It has that many entries. 32-bit entries are B,G,R,A; 24-bit entries are B,G,R with alpha 255; 16- and 8-bit entries consume nothing. Reading fails exactly when the bytes it consumes are missing. |
| Decoder.Palette24RoundTrip | Tga.cpp:168-176 | Opaque colours written as B,G,R triples are read back as those colours, and the rest is left. |
| Decoder.Palette32RoundTrip | Tga.cpp:164-167 | Colours written as B,G,R,A quadruples are read back as those colours, and the rest is left. |
| Decoder.GreyPalette | Tga.cpp:225-232 | The grey ramp has 255 opaque entries, and entry i has red, green and blue equal to i. |
| Decoder.GreyPaletteMissesWhite | Tga.cpp:225-227 | Every grey level has its entry except 255, which lies past the end of the ramp. |
| Decoder.DescriptorFlip | Tga.cpp:190-203 | The flip is set exactly when the origin field is 0..3, and it is the flip for that corner. Otherwise it is left unset. |
| Decoder.DescriptorFlipOfCorner | Tga.cpp:190-203 | The flip depends on the corner alone and not on the alpha bits, and different corners give different flips. |
| Decoder.ReadRawRows | Tga.cpp:240-245 | The row reader yields exactly `height` rows (none for a negative height), or fails for truncated pixels. |
| Decoder.ReadRawRowsSucceeds | Tga.cpp:240-245 | The row reader succeeds exactly when `height * rowBytes` bytes are present, and then leaves the bytes after them. |
| Decoder.ReadRawRowsSplit | Tga.cpp:240-245 | Each row is `rowBytes` long, and the rows followed by the rest make up the input. |
| Decoder.ReadRawRowsContents | Tga.cpp:241-243 | Row y is stream bytes y*rowBytes .. (y+1)*rowBytes. |
| Decoder.ReadRawRowsOfFlatten | Tga.cpp:240-245 | Rows laid end to end are read back as those rows. |
| Decoder.Create | Tga.cpp:112-288 | A closed stream or a missing header fails. On success: the image type is 1..3 or 9..11; width, height and depth come from the header; the layout is the one selected for the depth and alpha bits; the flip comes from the descriptor; there is one row per line; the palette is the grey ramp for black-and-white types, otherwise it has the colour-map length. |
| Decoder.DecodeBody | Tga.cpp:133-283 | Success needs the whole colour map and a supported image type, and yields one row per line. No-data and unknown types fail. |
| Decoder.ColorMapByteIgnored | Tga.cpp:160 | The colour-map type byte has no effect on decoding. |
| Decoder.UnsupportedTypesFail | Tga.cpp:281-282 | Every image type outside 1, 2, 3, 9, 10 and 11, including 0, makes the decode fail. |
| Decoder.CreatePixels | Tga.cpp:205-207 | The pixel data is read from just after the header, the image ID and the colour map. |
| Decoder.CreateRawRows | Tga.cpp:237-246 | For an uncompressed type, row y is the stream bytes at pixel offset + y*rowBytes, for any image ID and colour map. |
| Decoder.CreateRleRows | Tga.cpp:247-280 | For an RLE type, the rows are what the packet loop makes of the bytes from the pixel offset, for any image ID and colour map. |
| Decoder.DecodeUncompressedFile | Tga.cpp:236-246 | A header with no image ID and no colour map, followed by `height` rows of `rowBytes`, decodes to exactly those rows, together with the header's geometry, layout and flip. |
| Decoder.DecodeRleFile | Tga.cpp:247-280 | A header with no image ID and no colour map, followed by the compressor's output for `height` rows of positive width, decodes to those rows. |
| Decoder.DecodeBodyRle | Tga.cpp:247-280 | Once the colour map and the packet loop succeed, an RLE type yields the loop's rows, the selected layout and the descriptor's flip. |
| Rle.RawScan | TgaWrite.cpp:91-94 | The raw scan stops at the first unit equal to the first unit of the row, and every unit it passed differs from it. |
| Rle.RepeatScan | TgaWrite.cpp:111-114 | The repeat scan stops at the first unit that differs from the first unit, and every unit it passed equals it. |
| Rle.RawScanNeverAdvances | TgaWrite.cpp:89-94 | Started at 0, the raw scan compares the first unit with itself and stops at once. |
| Rle.RepeatScanIsMaximalRun | TgaWrite.cpp:111-114 | The repeat scan takes the whole maximal run of the first unit, which is at least one unit. |
| Rle.RepeatPackets | TgaWrite.cpp:116-128 | A run is emitted as repeat packets only, and a non-empty run emits at least one packet. |
| Rle.RawPackets | TgaWrite.cpp:96-109 | Were the raw emission reached, it would emit nothing exactly for an empty run, and its first control byte would be the unit count, capped at 127, rather than count − 1. That byte has bit 7 clear. |
| Rle.RepeatPacketsLength | TgaWrite.cpp:116-128 | A run of n units costs one packet, a control byte and one unit, per started 128 units. |
| Rle.WriteRleStep | TgaWrite.cpp:88-129 | Each outer iteration consumes the maximal run of the row's first unit, at least one unit, and emits it as repeat packets. |
| Rle.WriteRle | TgaWrite.cpp:84-130 | The compressor's output is empty exactly when the row is, and it starts with a repeat packet. `Rle.WriteRleOnlyRepeatPackets` extends this to every packet, and `Rle.RleRoundTrip` shows the output decodes back to the row. |
| Rle.WriteRleOnlyRepeatPackets | TgaWrite.cpp:84-130 | Every control byte the compressor writes has bit 7 set: no raw packet is ever emitted. |
| Rle.FiveEqualUnits | TgaWrite.cpp:123-128 | Five equal units become `0x84, u`. |
| Rle.HundredThirtyEqualUnits | TgaWrite.cpp:116-128 | 130 equal units become `0xFF, u, 0x81, u`. |
| Rle.DistinctNeighboursGiveSingleRepeats | TgaWrite.cpp:88-129 | When no two neighbouring units are equal, every unit gets its own `0x80` packet. |
| Rle.TwoHundredDistinctUnits | TgaWrite.cpp:91-109 | 200 distinct one-byte units become 200 two-byte repeat packets, not a 127/73 raw split. |
| Rle.RawPacketsOverreadByOne | TgaWrite.cpp:96-109 | Were the raw emission reached, its control byte would be the unit count, so the decoder would take one unit more than the packet holds. |
| Rle.DecodePacket | Tga.cpp:251-270 | One packet yields units of the unit size and leaves a strict suffix of the stream. |
| Rle.DecodePacketSpec | Tga.cpp:251-270 | A packet is read exactly when its control byte and payload are present. It yields count field + 1 units: copies of one unit for a repeat packet, the payload cut into units for a raw packet. |
| Rle.DecodeRawPacket | Tga.cpp:265-269 | A raw control byte c yields c + 1 units. |
| Rle.DecodeRepeatPacket | Tga.cpp:253-263 | A repeat control byte c yields c - 127 copies of its unit. |
| Rle.DecodeRleRows | Tga.cpp:250-279 | The packet loop keeps the rows already complete and ends with `height` rows, each exactly width units long. Its rest is a suffix of the input. |
| Rle.FinishPacket | Tga.cpp:272-278 | A row is closed only when its unit count equals the width exactly; a count past the width is a row overrun. |
| Rle.RepeatPacketsDecode | Tga.cpp:253-263 | The repeat packets of a run of n copies add exactly those n copies to the current row. |
| Rle.WriteRleFirstRun | TgaWrite.cpp:111-128 | Decoding the compressor's first run of a row adds that run to the row. |
| Rle.WriteRleDecode | TgaWrite.cpp:88-129 | Decoding a row's compressor output completes that row with exactly its units. |
| Rle.RleImageDecode | Tga.cpp:250-279 | Decoding the compressor's output for several rows adds those rows, in order. |
| Rle.RleRoundTrip | TgaWrite.cpp:84-130 | The packet loop reads the compressor's output back as the original rows, in order, and stops exactly at its end. |
| Encoder.Put | TgaWrite.cpp:161-163 | A seek and a put store the bytes one after another from the position and change nothing else. |
| Encoder.StartHeader | TgaWrite.cpp:14-31 | The header has: no image ID, no colour map, zero origins; width and height as int16 and depth as uint8 of the inputs; top-left origin with no alpha bits; type 10 with RLE, else 2. |
| Encoder.Start | TgaWrite.cpp:10-68 | `Start` writes that header at the position and nothing else, selects the layout from bpp and `hasAlpha`, places pixel data right after the header, and sets the line counter to the height. |
| Encoder.UnitSize | TgaWrite.cpp:138-153 | A unit type exists exactly for 8, 16, 24 and 32 bits, and has depth/8 bytes. |
| Encoder.LineUnits | TgaWrite.cpp:86 | The compressor reads `rowBytes / sizeof(T)` units, which are the line's first bytes. |
| Encoder.WriteLineRaw | TgaWrite.cpp:132-164 | In RLE mode with a supported depth, the compressed line is appended at `soff`, `soff` moves past it, and the counter drops. With an unsupported depth nothing changes. Uncompressed, the line's first `rowBytes` go to slot `linei - 1` and `soff` stays. |
| Encoder.WriteLines | TgaWrite.cpp:132-164 | Writing lines never changes the configuration, layout or row size. |
| Encoder.RawPlacement | TgaWrite.cpp:161-163 | n uncompressed calls fill the n slots below the counter from the top down, so the region holds the lines last-first. Nothing outside it changes and `soff` never moves. |
| Encoder.RawSlots | TgaWrite.cpp:161-163 | Over h calls from counter h, slot y holds line h-1-y. Nothing is written outside [soff, soff + h*rowBytes). |
| Encoder.RlePlacement | TgaWrite.cpp:135-158 | RLE lines follow one another from `soff`, and `soff` ends just past them. The counter drops by one per line, and nothing else is touched. |
| Encoder.RleUnsupportedDepthWritesNothing | TgaWrite.cpp:151-152 | Compressing at an unsupported depth changes neither the encoder nor the stream. |
| RoundTrip.EncodeRawWritesFile | TgaWrite.cpp:6-8 | No palette is written: an uncompressed session writes the header and then the pixel slots, with nothing in between and nothing after. |
| RoundTrip.EncodeRleWritesFile | TgaWrite.cpp:60-63 | An RLE session writes the header, then the packets right after it, and nothing else; `soff` ends at the end of the file. |
| RoundTrip.RleStreamIsImage | TgaWrite.cpp:135-158 | The bytes the RLE-mode calls append are the compressor's output over each line's units, in call order. |
| RoundTrip.StartHeaderFields | TgaWrite.cpp:26-29 | In range, the written header keeps width, height and depth, declares zero alpha bits, and decodes to no flip. |
| RoundTrip.RawEndToEnd | Tga.cpp:237-246 | Decoding an uncompressed session's file gives the geometry, depth and layout, no palette, no flip, and the lines last-first. |
| RoundTrip.RleEndToEnd | Tga.cpp:247-280 | Decoding an RLE session's file gives the geometry, depth and layout, no palette, no flip, and the lines in call order. |
| RoundTrip.RawAndRleRowOrdersDiffer | TgaWrite.cpp:161 | Encoding the same lines uncompressed and with RLE decodes to vertically mirrored images whenever the first and last lines differ. |
| RoundTrip.EncoderLayoutMatchesDecoder | TgaWrite.cpp:33-54 | The encoder's layout matches the one the decoder selects for its file exactly when no alpha was asked for at 32 or 16 bits. |

## Left out

- Decoder.ReadRawRows: a stream that ends inside the pixel rows fails with `TruncatedPixels`. At Tga.cpp:241 the C++ reader ignores how many bytes `stream.Get` delivered, reads the stale scanline buffer, and still returns true at Tga.cpp:287. The buffer's contents are not modelled.
- Decoder.ReadPalette: a short 32-bit colour map fails with `TruncatedPalette`. At Tga.cpp:166 the C++ reader ignores the short `Get` and keeps the unread entries as allocated.
- Decoder.ReadPalette: a 24-bit colour map that runs past the end of the stream also fails with `TruncatedPalette`. At Tga.cpp:170-172 each `Get8` there returns -1, which is stored as 0xFF.
- Decoder.ReadPalette: the B,G,R,A order of 32-bit entries assumes the library's `RGBA` struct stores its fields in that order. Tga.cpp:166 copies the bytes into the structs verbatim, and the struct layout is not part of this model.
- Rle.DecodeRleRows: a packet that carries a row past its width is `RowOverrun`. At Tga.cpp:250-279 the C++ loop never checks `pos` against the scanline: it writes past the buffer and, since `x` never again equals the width, runs until the stream is exhausted and beyond.
- Rle.DecodeRleRows: a stream that ends inside a packet is `TruncatedStream`. At Tga.cpp:251 the C++ `Get8` at the end of the stream yields -1, which is taken as control byte 255. At Tga.cpp:258 and :267 short `Get` calls are not checked either.
- Rle.RleRoundTrip: zero-width RLE images are outside the round trip, which requires a width of at least 1. With width 0 the C++ packet loop (Tga.cpp:250-279) never sees the unit count equal the width, so no row ever closes. For a positive height the model's `Rle.DecodeRleRows` then fails, with a row overrun at the first packet or a truncated stream. No lemma states this case, and `RoundTrip.RleEndToEnd` carries the same bound.
- Tga.SetMono: the setter takes its flag explicitly. `Mono()` with no argument (tga.h:72) is `SetMono(c, true)`.
- Tga.SetRle: the setter takes its flag explicitly. `RLE()` with no argument (tga.h:73) is `SetRle(c, true)`.
- Rle.RepeatScan: the scan tests for the end of the row before comparing. At TgaWrite.cpp:111 the C++ loop reads `read[run]` before testing `remaining`, so it reads one unit past the row. That read cannot change the result and is not modelled.
- Encoder.WriteLineRaw: the uncompressed slot offset `soff + row_bytes * --linei` (TgaWrite.cpp:161) is a C++ `int` product (tga.h:60-61). It overflows, which is undefined behaviour, once `rowBytes * (linei - 1)` reaches 2^31; a 30000 × 20000 image at 32 bits already gets there. The model takes the product as an exact integer, so `Encoder.RawPlacement` and `Encoder.RawSlots` describe the code only below that bound.
- Encoder.RawPlacement: the slot offsets are exact integers; see `Encoder.WriteLineRaw` for the `int` overflow at TgaWrite.cpp:161.
- Encoder.RawSlots: the slot offsets are exact integers; see `Encoder.WriteLineRaw` for the `int` overflow at TgaWrite.cpp:161.
- Rle.WriteRle: the compressor works on the units of one line. `WriteRLE<T>` reinterprets the line's bytes as `T` (TgaWrite.cpp:140-149). For 32 and 24 bits that is a comparison of whole 4- or 3-byte units, as modelled, and memory aliasing is not represented.
- `TGAEncoder::GetPaletteCount` (TgaWrite.cpp:6-8) has no member of its own, because it always reports 0 colours. Its consequence, that no colour map is written, is stated by `RoundTrip.EncodeRawWritesFile` and `RoundTrip.EncodeRleWritesFile`.
- The pixel conversion `fmt.Read` (Tga.cpp:242, 273) and the raster-format class (`Set32le`, `Set24le`, `Set16le`, `Set8A`, `Set8`, `GetByteCount`, `GetColorCount`) belong to the graphics library and are not part of this model. A layout is a tag with its masks, a decoded row is the row's file bytes, and `rowBytes` is a parameter.
- `GetDotSize` and `info.dots` (Tga.cpp:10-17, 186) compute with floating point and are not modelled. `info.kind`, `info.hotspot` and `info.colors` (Tga.cpp:184, 187-188) are not modelled either; `info.bpp` and `info.orientation` (Tga.cpp:185, 190-203) are `Decoded.depth` and `Decoded.flip`.
- `TGAHeader::ToString` and `LOG` (Tga.cpp:19-83, 107; TgaWrite.cpp:11) are diagnostic text.
- Host glue is not modelled: the initializer registration, `IsTGA`, the `GetSize`/`GetInfo`/`GetLine`/`GetPalette`/`GetFormat`/`GetMetaData`/`EnumMetaData` accessors, and the image-buffer and raster construction (Tga.cpp:285).
- Streams are not modelled as objects. The decoder reads a byte sequence from position 0 and takes `IsOpen` as a boolean. The encoder writes into a position-to-byte map. Seek failures, file sizes and the commented-out `SetSize` (TgaWrite.cpp:65) are not represented.
- The end-to-end lemmas in `RoundTrip` start the encoder at position 0 of an empty stream; `Encoder.Start` and the placement lemmas hold at any position and over any prior contents.
- `LoadTGAHeader` passes the `Vector` object itself, not its data, to `GetAll` at Tga.cpp:102. The model skips the image ID, which is what the read is for.
- The unused state is not modelled: the raster's `topdown`, `rleScan` and `file`, and the decoder's early `palette.Alloc` at Tga.cpp:133-135, which the allocation at :162 repeats. The encoder's `grayscale` flag is kept as a field, but nothing reads it. The footer struct is modelled as a layout only, since nothing reads or writes it.

## Where the code departs from the format's documented behaviour

The model follows the code as written. These lemmas state the difference:

- `Rle.RawScanNeverAdvances`, `Rle.WriteRleOnlyRepeatPackets` and `Rle.TwoHundredDistinctUnits`: the compressor's raw scan (TgaWrite.cpp:91) compares the row's first unit with itself, so it never advances. The compressor therefore emits only repeat packets: 200 distinct units give 200 `0x80` packets rather than a 127-unit and a 73-unit raw packet. The output is still valid RLE, and `Rle.RleRoundTrip` shows that it decodes to the original rows.
- `Rle.RawPacketsOverreadByOne`: the unreachable raw emission (TgaWrite.cpp:96-109) writes the unit count as the control byte. The format wants count − 1, so a decoder would read one unit too many.
- `Decoder.GreyPaletteMissesWhite`: the grey ramp for black-and-white types (Tga.cpp:225-232) has 255 entries, 0..254, not 256, so grey level 255 has no palette entry.
- `RoundTrip.RawAndRleRowOrdersDiffer`: both modes write the top-left origin descriptor. Uncompressed mode fills slots from the bottom up (TgaWrite.cpp:161), while RLE mode appends lines in call order (TgaWrite.cpp:136, 156). The same lines therefore decode to vertically mirrored images in the two modes.
- `Tga.SettersKeepAlphaOff` and `RoundTrip.EncoderLayoutMatchesDecoder`: `hasAlpha` has no setter and no constructor argument, so the alpha layouts of `Start` (TgaWrite.cpp:35-36, 46-47) can never be chosen. If they were, the header's zero alpha bits (TgaWrite.cpp:29) would make the decoder select a different layout.
- `Encoder.StartHeader`: the header type is 2 or 10 (true colour) whatever the depth or grayscale flag, and no image ID or palette is ever written (TgaWrite.cpp:14-31, 60-63).

=== FILE: bytes.dfy ===
/**
 * Fixed-width integers as they appear in the packed TGA structures, their
 * little-endian byte images, the C narrowing casts the encoder applies, and
 * the byte-sequence helpers (flattening, chunking into pixel units) that the
 * codec uses.
 */
module Bytes {

  type uint8 = x: int | 0 <= x < 0x100
  type uint16 = x: int | 0 <= x < 0x1_0000
  type int16 = x: int | -0x8000 <= x < 0x8000
  type uint32 = x: int | 0 <= x < 0x1_0000_0000

  /** Multiplication steps the row and packet arithmetic needs spelled out. */
  lemma MulSucc(a: int, b: int)
    ensures (a + 1) * b == a * b + b
    ensures b * (a + 1) == b * a + b
  {
  }

  lemma MulNonNegative(a: nat, b: nat)
    ensures a * b >= 0
  {
  }

  // ---------------------------------------------------------------------------
  // 16-bit words
  // ---------------------------------------------------------------------------

  /** Little-endian image of an unsigned 16-bit word: low byte first. */
  function WordBytes(v: uint16): (r: seq<uint8>)
    ensures |r| == 2
    ensures r[0] as int + 0x100 * (r[1] as int) == v
  {
    [v % 0x100, v / 0x100]
  }

  /** The unsigned 16-bit word stored little-endian in `lo`, `hi`. */
  function WordOf(lo: uint8, hi: uint8): (v: uint16)
    ensures v % 0x100 == lo && v / 0x100 == hi
  {
    lo + 0x100 * hi
  }

  lemma WordRoundTrip(v: uint16)
    ensures WordOf(WordBytes(v)[0], WordBytes(v)[1]) == v
  {
  }

  lemma WordBytesRoundTrip(lo: uint8, hi: uint8)
    ensures WordBytes(WordOf(lo, hi)) == [lo, hi]
  {
  }

  /** Two's-complement bit pattern of a signed 16-bit value. */
  function Int16Bits(v: int16): (u: uint16)
    ensures (u - v) % 0x1_0000 == 0
  {
    if v < 0 then v + 0x1_0000 else v
  }

  /** The signed 16-bit value whose two's-complement bit pattern is `u`. */
  function Int16OfBits(u: uint16): (v: int16)
    ensures (u - v) % 0x1_0000 == 0
  {
    if u >= 0x8000 then u - 0x1_0000 else u
  }

  /** Bit patterns and signed values are in one-to-one correspondence. */
  lemma Int16BitsRoundTrip(v: int16, u: uint16)
    ensures Int16OfBits(Int16Bits(v)) == v
    ensures Int16Bits(Int16OfBits(u)) == u
  {
  }

  /** Little-endian image of a signed 16-bit value. */
  function Int16Bytes(v: int16): (r: seq<uint8>)
    ensures |r| == 2
  {
    WordBytes(Int16Bits(v))
  }

  /** The signed 16-bit value stored little-endian in `lo`, `hi`. */
  function Int16Of(lo: uint8, hi: uint8): int16 {
    Int16OfBits(WordOf(lo, hi))
  }

  /** Every value in -32768..32767 survives two little-endian bytes, and every byte pair is some value. */
  lemma Int16RoundTrip(v: int16, lo: uint8, hi: uint8)
    ensures Int16Of(Int16Bytes(v)[0], Int16Bytes(v)[1]) == v
    ensures Int16Bytes(Int16Of(lo, hi)) == [lo, hi]
  {
    WordRoundTrip(Int16Bits(v));
    Int16BitsRoundTrip(v, WordOf(lo, hi));
    WordBytesRoundTrip(lo, hi);
  }

  // ---------------------------------------------------------------------------
  // 32-bit double words
  // ---------------------------------------------------------------------------

  /** Little-endian image of an unsigned 32-bit double word. */
  function DwordBytes(v: uint32): (r: seq<uint8>)
    ensures |r| == 4
  {
    [v % 0x100, (v / 0x100) % 0x100, (v / 0x1_0000) % 0x100, v / 0x100_0000]
  }

  /** The unsigned 32-bit value stored little-endian in four bytes. */
  function DwordOf(b0: uint8, b1: uint8, b2: uint8, b3: uint8): uint32 {
    b0 + 0x100 * b1 + 0x1_0000 * b2 + 0x100_0000 * b3
  }

  /** `x` written as `q` whole 256s plus a byte `r`: quotient and remainder are `q` and `r`. */
  lemma DivMod256(x: int, q: int, r: int)
    requires 0 <= r < 0x100 && x == 0x100 * q + r
    ensures x / 0x100 == q && x % 0x100 == r
  {
  }

  /** Dividing by 256 twice is dividing by 65536; three times, by 2^24. */
  lemma DivDiv256(v: nat)
    ensures v / 0x100 / 0x100 == v / 0x1_0000
    ensures v / 0x1_0000 / 0x100 == v / 0x100_0000
  {
    DivMod256(v / 0x100, v / 0x100 / 0x100, v / 0x100 % 0x100);
    DivMod256(v, v / 0x100, v % 0x100);
    assert v == 0x1_0000 * (v / 0x100 / 0x100) + (0x100 * (v / 0x100 % 0x100) + v % 0x100);
    assert v / 0x1_0000 == v / 0x100 / 0x100;
    assert v / 0x1_0000 / 0x100 == v / 0x100_0000;
  }

  lemma DwordRoundTrip(v: uint32)
    ensures DwordOf(DwordBytes(v)[0], DwordBytes(v)[1], DwordBytes(v)[2], DwordBytes(v)[3]) == v
  {
    var q1 := v / 0x100;
    var q2 := q1 / 0x100;
    var q3 := q2 / 0x100;
    DivMod256(v, q1, v % 0x100);
    DivMod256(q1, q2, q1 % 0x100);
    DivMod256(q2, q3, q2 % 0x100);
    DivDiv256(v);
    assert v == v % 0x100 + 0x100 * (q1 % 0x100) + 0x1_0000 * (q2 % 0x100) + 0x100_0000 * q3;
  }

  lemma DwordBytesRoundTrip(b0: uint8, b1: uint8, b2: uint8, b3: uint8)
    ensures DwordBytes(DwordOf(b0, b1, b2, b3)) == [b0, b1, b2, b3]
  {
    var x := DwordOf(b0, b1, b2, b3);
    var q1, q2 := b1 + 0x100 * (b2 + 0x100 * b3), b2 + 0x100 * b3;
    DivMod256(x, q1, b0);
    DivMod256(q1, q2, b1);
    DivMod256(q2, b3, b2);
    DivDiv256(x);
  }

  // ---------------------------------------------------------------------------
  // C narrowing casts
  // ---------------------------------------------------------------------------

  /** `int16(x)`: keeps the low 16 bits of `x` as a two's-complement value. */
  function WrapInt16(x: int): (r: int16)
    ensures (r - x) % 0x1_0000 == 0
    ensures -0x8000 <= x < 0x8000 ==> r == x
  {
    Int16OfBits(x % 0x1_0000)
  }

  /** `uint8(x)` / `byte(x)`: keeps the low 8 bits of `x`. */
  function WrapUint8(x: int): (r: uint8)
    ensures (r - x) % 0x100 == 0
    ensures 0 <= x < 0x100 ==> r == x
  {
    x % 0x100
  }

  // ---------------------------------------------------------------------------
  // Sequences of units
  // ---------------------------------------------------------------------------

  /** Concatenation of a sequence of sequences, in order. */
  function Flatten<T>(xs: seq<seq<T>>): seq<T> {
    if |xs| == 0 then [] else xs[0] + Flatten(xs[1..])
  }

  lemma {:induction false} FlattenAppend<T>(xs: seq<seq<T>>, ys: seq<seq<T>>)
    ensures Flatten(xs + ys) == Flatten(xs) + Flatten(ys)
  {
    if |xs| == 0 {
      assert xs + ys == ys;
    } else {
      assert (xs + ys)[1..] == xs[1..] + ys;
      FlattenAppend(xs[1..], ys);
    }
  }

  /** When every piece has length `k`, piece `j` sits at offset `j * k` of the concatenation. */
  lemma {:induction false} FlattenSlice<T>(xs: seq<seq<T>>, k: nat, j: nat)
    requires forall i :: 0 <= i < |xs| ==> |xs[i]| == k
    requires j < |xs|
    ensures |Flatten(xs)| == |xs| * k
    ensures j * k + k <= |Flatten(xs)|
    ensures Flatten(xs)[j * k .. j * k + k] == xs[j]
  {
    FlattenLength(xs, k);
    if j == 0 {
    } else {
      FlattenSlice(xs[1..], k, j - 1);
      assert (j - 1) * k + k == j * k;
      var f := Flatten(xs[1..]);
      assert Flatten(xs) == xs[0] + f;
      assert Flatten(xs)[j * k .. j * k + k] == f[(j - 1) * k .. (j - 1) * k + k];
    }
  }

  lemma {:induction false} FlattenLength<T>(xs: seq<seq<T>>, k: nat)
    requires forall i :: 0 <= i < |xs| ==> |xs[i]| == k
    ensures |Flatten(xs)| == |xs| * k
  {
    if |xs| > 0 {
      FlattenLength(xs[1..], k);
    }
  }

  /** `n` copies of `u`: what a repeat packet expands to. */
  function Copies<T>(u: T, n: nat): (r: seq<T>)
    ensures |r| == n
    ensures forall i :: 0 <= i < n ==> r[i] == u
  {
    seq(n, _ => u)
  }

  lemma CopiesAppend<T>(u: T, m: nat, n: nat)
    ensures Copies(u, m) + Copies(u, n) == Copies(u, m + n)
  {
  }

  /** Splits `s` into `n` consecutive pieces of `k` elements: a row viewed as `n` pixel units. */
  function Chunk<T>(s: seq<T>, n: nat, k: nat): (r: seq<seq<T>>)
    requires |s| == n * k
    ensures |r| == n
    ensures forall i :: 0 <= i < n ==> |r[i]| == k
    ensures Flatten(r) == s
  {
    if n == 0 then []
    else
      var rest := Chunk(s[k..], n - 1, k);
      assert s == s[..k] + s[k..];
      [s[..k]] + rest
  }
}

=== FILE: decoder.dfy ===
/**
 * The TGA raster decoder: header loading, pixel-layout selection, colour-map
 * reading, the synthesized grey ramp, the descriptor's origin corner, and the
 * image-type dispatch to the uncompressed row reader or the RLE packet loop.
 *
 * The stream is the whole file as a byte sequence (the header is always read
 * from position 0) plus an "is open" flag; each stage consumes a prefix and
 * hands on the rest.  Reads whose outcome Tga.cpp does not check at the end
 * of the stream (the row reads at Tga.cpp:241, the colour-map read at
 * Tga.cpp:166) are explicit failures here.
 */
module Decoder {
  import opened Bytes
  import opened Results
  import opened TgaHdr
  import opened Tga
  import opened Layout
  import Rle

  datatype DecodeError =
    | NotOpen               // the stream is not open
    | HeaderUnavailable     // fewer than 18 header bytes, or the image ID is cut short
    | TruncatedPalette      // the colour map is cut short
    | TruncatedPixels       // the pixel data is cut short
    | RowOverrun            // an RLE packet ran past the end of a row
    | UnsupportedImageType  // an image type other than 1, 2, 3, 9, 10, 11

  // ---------------------------------------------------------------------------
  // Header
  // ---------------------------------------------------------------------------

  /**
   * Reads the 18-byte header from the start of the stream and skips the
   * image ID that follows it.  Yields the header and the bytes after the ID.
   */
  function LoadHeader(isOpen: bool, s: seq<uint8>): (r: Result<(Header, seq<uint8>), DecodeError>)
    ensures !isOpen ==> r == Fail(NotOpen)
    ensures isOpen && |s| < HeaderSize ==> r == Fail(HeaderUnavailable)
    ensures isOpen && HeaderSize <= |s| ==>
      var h := ParseHeader(s[..HeaderSize]);
      && (r.Ok? <==> HeaderSize + h.idLength <= |s|)
      && (r.Ok? ==> r.value == (h, s[HeaderSize + h.idLength..]))
  {
    if !isOpen then Fail(NotOpen)
    else if |s| < HeaderSize then Fail(HeaderUnavailable)
    else
      var h := ParseHeader(s[..HeaderSize]);
      if |s| < HeaderSize + h.idLength then Fail(HeaderUnavailable)
      else Ok((h, s[HeaderSize + h.idLength..]))
  }

  /** A header written out and followed by its image ID is loaded back unchanged. */
  lemma LoadHeaderRoundTrip(h: Header, id: seq<uint8>, rest: seq<uint8>)
    requires |id| == h.idLength
    ensures LoadHeader(true, HeaderBytes(h) + id + rest) == Ok((h, rest))
  {
    var s := HeaderBytes(h) + id + rest;
    assert s[..HeaderSize] == HeaderBytes(h);
    HeaderRoundTrip(h);
    assert s[HeaderSize + h.idLength..] == rest;
  }

  // ---------------------------------------------------------------------------
  // Colour map
  // ---------------------------------------------------------------------------

  datatype Rgba = Rgba(r: uint8, g: uint8, b: uint8, a: uint8)

  datatype Palette =
    | NoPalette                   // the colour-map length is 0
    | Entries(colors: seq<Rgba>)  // entries read from the file or synthesized
    | Unfilled(count: nat)        // allocated but never written (8- and 16-bit entry sizes)

  function PaletteCount(p: Palette): nat {
    match p
    case NoPalette => 0
    case Entries(colors) => |colors|
    case Unfilled(count) => count
  }

  /** Bytes the colour map occupies in the stream: only 24- and 32-bit entries are read. */
  function PaletteBytes(spec: ColorMapSpec): nat {
    if spec.length == 0 then 0
    else if spec.entrySize == 32 then 4 * spec.length
    else if spec.entrySize == 24 then 3 * spec.length
    else 0
  }

  /**
   * Reads the colour map when its length is nonzero, whatever the colour-map
   * type byte says.  32-bit entries are stored B, G, R, A; 24-bit entries are
   * stored B, G, R and get alpha 255; other entry sizes consume nothing.
   */
  function ReadPalette(spec: ColorMapSpec, s: seq<uint8>): (r: Result<(Palette, seq<uint8>), DecodeError>)
    ensures r.Ok? <==> PaletteBytes(spec) <= |s|
    ensures r.Ok? ==> PaletteCount(r.value.0) == spec.length && r.value.1 == s[PaletteBytes(spec)..]
    ensures r.Ok? && spec.length > 0 && spec.entrySize == 24 ==>
      r.value.0.Entries? && forall i :: 0 <= i < spec.length ==> r.value.0.colors[i] == Rgba(s[3 * i + 2], s[3 * i + 1], s[3 * i], 255)
    ensures r.Ok? && spec.length > 0 && spec.entrySize == 32 ==>
      r.value.0.Entries? && forall i :: 0 <= i < spec.length ==> r.value.0.colors[i] == Rgba(s[4 * i + 2], s[4 * i + 1], s[4 * i], s[4 * i + 3])
    ensures r.Ok? && spec.length > 0 && spec.entrySize != 24 && spec.entrySize != 32 ==> r.value.0 == Unfilled(spec.length)
  {
    var n := spec.length;
    if n == 0 then Ok((NoPalette, s))
    else if |s| < PaletteBytes(spec) then Fail(TruncatedPalette)
    else if spec.entrySize == 32 then
      Ok((Entries(seq(n, i requires 0 <= i < n => Rgba(s[4 * i + 2], s[4 * i + 1], s[4 * i], s[4 * i + 3]))), s[4 * n..]))
    else if spec.entrySize == 24 then
      Ok((Entries(seq(n, i requires 0 <= i < n => Rgba(s[3 * i + 2], s[3 * i + 1], s[3 * i], 255))), s[3 * n..]))
    else Ok((Unfilled(n), s))
  }

  /** File order of a 24-bit colour-map entry. */
  function Bgr(c: Rgba): seq<uint8> {
    [c.b, c.g, c.r]
  }

  /** File order of a 32-bit colour-map entry. */
  function Bgra(c: Rgba): seq<uint8> {
    [c.b, c.g, c.r, c.a]
  }

  /** A 24-bit colour map of opaque colours is read back as those colours. */
  lemma Palette24RoundTrip(colors: seq<Rgba>, first: uint16, rest: seq<uint8>)
    requires 0 < |colors| < 0x1_0000
    requires forall i :: 0 <= i < |colors| ==> colors[i].a == 255
    ensures var entries := seq(|colors|, i requires 0 <= i < |colors| => Bgr(colors[i]));
      ReadPalette(ColorMapSpec(first, |colors|, 24), Flatten(entries) + rest) == Ok((Entries(colors), rest))
  {
    var entries := seq(|colors|, i requires 0 <= i < |colors| => Bgr(colors[i]));
    var s := Flatten(entries) + rest;
    FlattenLength(entries, 3);
    forall i | 0 <= i < |colors|
      ensures Rgba(s[3 * i + 2], s[3 * i + 1], s[3 * i], 255) == colors[i]
    {
      FlattenSlice(entries, 3, i);
      assert s[3 * i .. 3 * i + 3] == Bgr(colors[i]);
    }
    assert s[3 * |colors|..] == rest;
    var r := ReadPalette(ColorMapSpec(first, |colors|, 24), s);
    assert r.Ok?;
    assert r.value.0.colors == colors;
  }

  /** A 32-bit colour map is read back as the colours written, alpha included. */
  lemma Palette32RoundTrip(colors: seq<Rgba>, first: uint16, rest: seq<uint8>)
    requires 0 < |colors| < 0x1_0000
    ensures var entries := seq(|colors|, i requires 0 <= i < |colors| => Bgra(colors[i]));
      ReadPalette(ColorMapSpec(first, |colors|, 32), Flatten(entries) + rest) == Ok((Entries(colors), rest))
  {
    var entries := seq(|colors|, i requires 0 <= i < |colors| => Bgra(colors[i]));
    var s := Flatten(entries) + rest;
    FlattenLength(entries, 4);
    forall i | 0 <= i < |colors|
      ensures Rgba(s[4 * i + 2], s[4 * i + 1], s[4 * i], s[4 * i + 3]) == colors[i]
    {
      FlattenSlice(entries, 4, i);
      assert s[4 * i .. 4 * i + 4] == Bgra(colors[i]);
    }
    assert s[4 * |colors|..] == rest;
    var r := ReadPalette(ColorMapSpec(first, |colors|, 32), s);
    assert r.Ok?;
    assert r.value.0.colors == colors;
  }

  /** The ramp that replaces the palette of black-and-white images: 255 opaque greys 0..254. */
  function GreyPalette(): (p: seq<Rgba>)
    ensures |p| == 255
    ensures forall i :: 0 <= i < |p| ==> p[i].r == p[i].g == p[i].b == i && p[i].a == 255
  {
    seq(255, i requires 0 <= i < 255 => Rgba(i, i, i, 255))
  }

  /** Every grey level has an entry except full white: index 255 lies past the end of the ramp. */
  lemma GreyPaletteMissesWhite(level: uint8)
    ensures level < |GreyPalette()| <==> level != 255
    ensures level != 255 ==> GreyPalette()[level] == Rgba(level, level, level, 255)
  {
  }

  // ---------------------------------------------------------------------------
  // Orientation
  // ---------------------------------------------------------------------------

  /** The raster's flip codes. */
  datatype Flip = FlipNone | FlipMirrorHorz | FlipMirrorVert | FlipTransverse

  function OrientationOf(code: nat): Option<Orientation> {
    match code
    case 0 => Some(BottomLeft)
    case 1 => Some(BottomRight)
    case 2 => Some(TopLeft)
    case 3 => Some(TopRight)
    case _ => None
  }

  /** The flip recorded for each origin corner. */
  function FlipFor(o: Orientation): Flip {
    match o
    case BottomLeft => FlipMirrorVert
    case BottomRight => FlipMirrorHorz
    case TopLeft => FlipNone
    case TopRight => FlipTransverse
  }

  /** The flip for a descriptor byte; `None` when the origin field is 4..15 and the flip is left as it was. */
  function DescriptorFlip(descriptor: uint8): (r: Option<Flip>)
    ensures r.Some? <==> descriptor < 64
    ensures r.Some? ==> exists o :: OrientationCode(o) == descriptor / 16 && r.value == FlipFor(o)
  {
    match OrientationOf(OriginField(descriptor))
    case Some(o) => Some(FlipFor(o))
    case None => None
  }

  /** The flip depends on the origin corner only, never on the alpha bits, and each corner gets its own flip. */
  lemma DescriptorFlipOfCorner(o: Orientation, alpha: nat)
    requires alpha < 16
    ensures DescriptorFlip(DescriptorFor(o) + alpha) == Some(FlipFor(o))
    ensures AlphaBits(DescriptorFor(o) + alpha) == alpha
    ensures forall o' :: FlipFor(o') == FlipFor(o) ==> o' == o
  {
  }

  // ---------------------------------------------------------------------------
  // Uncompressed rows
  // ---------------------------------------------------------------------------

  /** Reads `height` rows of `rowBytes` bytes each, in stream order. */
  function ReadRawRows(s: seq<uint8>, rowBytes: nat, height: int): (r: Result<(seq<seq<uint8>>, seq<uint8>), DecodeError>)
    ensures r.Ok? ==> |r.value.0| == (if height < 0 then 0 else height)
    ensures r.Fail? ==> r.error == TruncatedPixels
    decreases height
  {
    if height <= 0 then Ok(([], s))
    else
      if |s| < rowBytes then Fail(TruncatedPixels)
      else match ReadRawRows(s[rowBytes..], rowBytes, height - 1)
        case Fail(e) => Fail(e)
        case Ok((rows, rest)) => Ok(([s[..rowBytes]] + rows, rest))
  }

  /**
   * The uncompressed reader succeeds exactly when the stream holds
   * `height * rowBytes` bytes, and then leaves what follows them.
   */
  lemma {:induction false} ReadRawRowsSucceeds(s: seq<uint8>, rowBytes: nat, height: int)
    ensures ReadRawRows(s, rowBytes, height).Ok? <==> height <= 0 || height * rowBytes <= |s|
    ensures ReadRawRows(s, rowBytes, height).Ok? ==>
      var n := |ReadRawRows(s, rowBytes, height).value.0|;
      n * rowBytes <= |s| && ReadRawRows(s, rowBytes, height).value.1 == s[n * rowBytes..]
    decreases height
  {
    var r := ReadRawRows(s, rowBytes, height);
    if height > 0 {
      MulSucc(height - 1, rowBytes);
      MulNonNegative(height - 1, rowBytes);
      if |s| >= rowBytes {
        ReadRawRowsSucceeds(s[rowBytes..], rowBytes, height - 1);
      }
    }
    if r.Ok? {
      ReadRawRowsSplit(s, rowBytes, height);
      FlattenLength(r.value.0, rowBytes);
      assert s[|Flatten(r.value.0)|..] == r.value.1;
    }
  }

  /** The uncompressed reader consumes exactly its rows' bytes, and every row is `rowBytes` long. */
  lemma {:induction false} ReadRawRowsSplit(s: seq<uint8>, rowBytes: nat, height: int)
    requires ReadRawRows(s, rowBytes, height).Ok?
    ensures forall i :: 0 <= i < |ReadRawRows(s, rowBytes, height).value.0| ==>
              |ReadRawRows(s, rowBytes, height).value.0[i]| == rowBytes
    ensures s == Flatten(ReadRawRows(s, rowBytes, height).value.0) + ReadRawRows(s, rowBytes, height).value.1
    decreases height
  {
    var r := ReadRawRows(s, rowBytes, height);
    if height <= 0 {
      assert r.value.0 == [] && r.value.1 == s;
    } else {
      var tail := s[rowBytes..];
      var more := ReadRawRows(tail, rowBytes, height - 1);
      assert more.Ok? && r.value.0 == [s[..rowBytes]] + more.value.0 && r.value.1 == more.value.1;
      ReadRawRowsSplit(tail, rowBytes, height - 1);
      assert r.value.0[1..] == more.value.0;
      assert s == s[..rowBytes] + tail;
    }
  }

  /** Row `y` read by the uncompressed reader is the `y`-th block of `rowBytes` bytes of the stream. */
  lemma ReadRawRowsContents(s: seq<uint8>, rowBytes: nat, height: int, y: int)
    requires ReadRawRows(s, rowBytes, height).Ok?
    requires 0 <= y < |ReadRawRows(s, rowBytes, height).value.0|
    ensures y * rowBytes + rowBytes <= |s|
    ensures ReadRawRows(s, rowBytes, height).value.0[y] == s[y * rowBytes .. y * rowBytes + rowBytes]
  {
    var rows := ReadRawRows(s, rowBytes, height).value.0;
    ReadRawRowsSplit(s, rowBytes, height);
    FlattenSlice(rows, rowBytes, y);
    PrefixSlice(Flatten(rows), ReadRawRows(s, rowBytes, height).value.1, y * rowBytes, y * rowBytes + rowBytes);
  }

  lemma PrefixSlice<T>(a: seq<T>, b: seq<T>, i: nat, j: nat)
    requires i <= j <= |a|
    ensures (a + b)[i..j] == a[i..j]
  {
  }

  // ---------------------------------------------------------------------------
  // The decoder
  // ---------------------------------------------------------------------------

  /** What a successful decode yields: geometry, layout, palette, flip and the pixel rows as bytes. */
  datatype Decoded = Decoded(
    width: int,
    height: int,
    depth: uint8,
    layout: PixelLayout,
    palette: Palette,
    flip: Option<Flip>,
    rows: seq<seq<uint8>>)

  /** Offset of the pixel data: after the header, the image ID and the colour map. */
  function PixelDataOffset(h: Header): nat {
    HeaderSize + h.idLength + PaletteBytes(h.colorMapSpec)
  }

  /**
   * Decodes a TGA stream.  `rowBytes` is the row size the selected pixel
   * layout gives for the header's width, and `prior` the layout in force
   * before decoding (kept for depths other than 8, 16, 24, 32).
   */
  function Create(isOpen: bool, s: seq<uint8>, rowBytes: nat, prior: PixelLayout): (r: Result<Decoded, DecodeError>)
    ensures !isOpen ==> r == Fail(NotOpen)
    ensures isOpen && |s| < HeaderSize ==> r == Fail(HeaderUnavailable)
    ensures r.Ok? ==> |s| >= HeaderSize && PixelDataOffset(ParseHeader(s[..HeaderSize])) <= |s|
    ensures r.Ok? ==> var h := ParseHeader(s[..HeaderSize]);
      && ImageTypeOf(h.imageType).Some?
      && var t := ImageTypeOf(h.imageType).value;
      && (IsUncompressed(t) || IsRle(t))
      && r.value.width == h.imageSpec.width && r.value.height == h.imageSpec.height
      && r.value.depth == h.imageSpec.depth
      && r.value.layout == SelectLayout(h.imageSpec.depth, AlphaBits(h.imageSpec.descriptor) != 0, prior)
      && r.value.flip == DescriptorFlip(h.imageSpec.descriptor)
      && |r.value.rows| == (if h.imageSpec.height < 0 then 0 else h.imageSpec.height)
      && (IsBlackWhite(t) ==> r.value.palette == Entries(GreyPalette()))
      && (!IsBlackWhite(t) ==> PaletteCount(r.value.palette) == h.colorMapSpec.length)
  {
    match LoadHeader(isOpen, s)
    case Fail(e) => Fail(e)
    case Ok((h, afterId)) => DecodeBody(h, afterId, rowBytes, prior)
  }

  /** Everything after the header and image ID: layout, palette, flip, then the image-type dispatch. */
  function DecodeBody(h: Header, s: seq<uint8>, rowBytes: nat, prior: PixelLayout): (r: Result<Decoded, DecodeError>)
    ensures r.Ok? ==> PaletteBytes(h.colorMapSpec) <= |s| && ImageTypeOf(h.imageType).Some?
    ensures r.Ok? ==> var t := ImageTypeOf(h.imageType).value;
      && (IsUncompressed(t) || IsRle(t))
      && |r.value.rows| == (if h.imageSpec.height < 0 then 0 else h.imageSpec.height)
    ensures ImageTypeOf(h.imageType).None? || ImageTypeOf(h.imageType) == Some(NoImageData) ==> r.Fail?
  {
    var spec := h.imageSpec;
    var layout := SelectLayout(spec.depth, AlphaBits(spec.descriptor) != 0, prior);
    match ReadPalette(h.colorMapSpec, s)
    case Fail(e) => Fail(e)
    case Ok((palette, pixels)) =>
      var flip := DescriptorFlip(spec.descriptor);
      match ImageTypeOf(h.imageType)
      case None => Fail(UnsupportedImageType)
      case Some(t) =>
        var palette' := if IsBlackWhite(t) then Entries(GreyPalette()) else palette;
        if IsUncompressed(t) then
          match ReadRawRows(pixels, rowBytes, spec.height)
          case Fail(e) => Fail(e)
          case Ok((rows, _)) => Ok(Decoded(spec.width, spec.height, spec.depth, layout, palette', flip, rows))
        else if IsRle(t) then
          match Rle.DecodeRleRows(pixels, spec.depth / 8, spec.width, spec.height, [], [])
          case Fail(e) => Fail(if e.TruncatedStream? then TruncatedPixels else RowOverrun)
          case Ok((rows, _)) => Ok(Decoded(spec.width, spec.height, spec.depth, layout, palette', flip, rows))
        else Fail(UnsupportedImageType)
  }

  /** The colour-map type byte plays no part in decoding: the colour-map length alone decides. */
  lemma ColorMapByteIgnored(h: Header, s: seq<uint8>, rowBytes: nat, prior: PixelLayout, colorMap: uint8)
    ensures DecodeBody(h.(colorMap := colorMap), s, rowBytes, prior) == DecodeBody(h, s, rowBytes, prior)
  {
  }

  /** Every image type other than 1, 2, 3, 9, 10, 11, and in particular "no image data", makes the decode fail. */
  lemma UnsupportedTypesFail(isOpen: bool, s: seq<uint8>, rowBytes: nat, prior: PixelLayout)
    requires HeaderSize <= |s|
    requires var code := ParseHeader(s[..HeaderSize]).imageType; !(1 <= code <= 3 || 9 <= code <= 11)
    ensures Create(isOpen, s, rowBytes, prior).Fail?
  {
    var h := ParseHeader(s[..HeaderSize]);
    match ImageTypeOf(h.imageType)
    case None =>
    case Some(t) => ImageTypeCodes(t);
  }

  /**
   * A successful decode reads its pixel data from `PixelDataOffset` on,
   * whatever the image ID and colour map before it.
   */
  lemma CreatePixels(isOpen: bool, s: seq<uint8>, rowBytes: nat, prior: PixelLayout) returns (h: Header, pixels: seq<uint8>)
    requires Create(isOpen, s, rowBytes, prior).Ok?
    ensures HeaderSize <= |s| && h == ParseHeader(s[..HeaderSize])
    ensures HeaderSize + h.idLength <= |s| && PixelDataOffset(h) <= |s| && pixels == s[PixelDataOffset(h)..]
    ensures var body := s[HeaderSize + h.idLength..];
      && ReadPalette(h.colorMapSpec, body).Ok? && ReadPalette(h.colorMapSpec, body).value.1 == pixels
      && Create(isOpen, s, rowBytes, prior) == DecodeBody(h, body, rowBytes, prior)
  {
    h := ParseHeader(s[..HeaderSize]);
    var body := s[HeaderSize + h.idLength..];
    pixels := s[PixelDataOffset(h)..];
    assert body[PaletteBytes(h.colorMapSpec)..] == pixels;
  }

  /**
   * Row `y` of an uncompressed image is the `y`-th block of `rowBytes` bytes
   * after the header, the image ID and the colour map.
   */
  lemma CreateRawRows(isOpen: bool, s: seq<uint8>, rowBytes: nat, prior: PixelLayout, y: int)
    requires Create(isOpen, s, rowBytes, prior).Ok?
    requires IsUncompressed(ImageTypeOf(ParseHeader(s[..HeaderSize]).imageType).value)
    requires 0 <= y < |Create(isOpen, s, rowBytes, prior).value.rows|
    ensures var off := PixelDataOffset(ParseHeader(s[..HeaderSize]));
      && off + y * rowBytes + rowBytes <= |s|
      && Create(isOpen, s, rowBytes, prior).value.rows[y] == s[off + y * rowBytes .. off + y * rowBytes + rowBytes]
  {
    var h, pixels := CreatePixels(isOpen, s, rowBytes, prior);
    DecodeBodyRawRows(h, s[HeaderSize + h.idLength..], rowBytes, prior);
    ReadRawRowsContents(pixels, rowBytes, h.imageSpec.height, y);
    MulNonNegative(y, rowBytes);
    SuffixSlice(s, PixelDataOffset(h), y * rowBytes, y * rowBytes + rowBytes);
  }

  /** For an uncompressed type, the decoded rows are the row reader's over the bytes after the colour map. */
  lemma DecodeBodyRawRows(h: Header, s: seq<uint8>, rowBytes: nat, prior: PixelLayout)
    requires DecodeBody(h, s, rowBytes, prior).Ok?
    requires IsUncompressed(ImageTypeOf(h.imageType).value)
    ensures ReadPalette(h.colorMapSpec, s).Ok?
    ensures var raw := ReadRawRows(ReadPalette(h.colorMapSpec, s).value.1, rowBytes, h.imageSpec.height);
      raw.Ok? && DecodeBody(h, s, rowBytes, prior).value.rows == raw.value.0
  {
  }

  lemma SuffixSlice<T>(s: seq<T>, off: nat, a: nat, b: nat)
    requires a <= b && off + b <= |s|
    ensures s[off..][a..b] == s[off + a..off + b]
  {
  }

  /**
   * The rows of an RLE image are what the packet loop makes of the bytes
   * after the header, the image ID and the colour map.
   */
  lemma CreateRleRows(isOpen: bool, s: seq<uint8>, rowBytes: nat, prior: PixelLayout)
    requires Create(isOpen, s, rowBytes, prior).Ok?
    requires IsRle(ImageTypeOf(ParseHeader(s[..HeaderSize]).imageType).value)
    ensures var h := ParseHeader(s[..HeaderSize]);
      var spec := h.imageSpec;
      var loop := Rle.DecodeRleRows(s[PixelDataOffset(h)..], spec.depth / 8, spec.width, spec.height, [], []);
      loop.Ok? && Create(isOpen, s, rowBytes, prior).value.rows == loop.value.0
  {
    var h, pixels := CreatePixels(isOpen, s, rowBytes, prior);
    assert !IsUncompressed(ImageTypeOf(h.imageType).value);
  }

  // ---------------------------------------------------------------------------
  // Decoding well-formed files
  // ---------------------------------------------------------------------------

  /** The uncompressed reader reads back rows laid end to end. */
  lemma {:induction false} ReadRawRowsOfFlatten(rows: seq<seq<uint8>>, rowBytes: nat)
    requires forall j :: 0 <= j < |rows| ==> |rows[j]| == rowBytes
    ensures ReadRawRows(Flatten(rows), rowBytes, |rows|) == Ok((rows, []))
    decreases |rows|
  {
    if |rows| > 0 {
      var s := Flatten(rows);
      assert s == rows[0] + Flatten(rows[1..]);
      assert s[..rowBytes] == rows[0] && s[rowBytes..] == Flatten(rows[1..]);
      ReadRawRowsOfFlatten(rows[1..], rowBytes);
      assert [rows[0]] + rows[1..] == rows;
    }
  }

  /** A header with no image ID and no colour map starts its pixel data at byte 18. */
  lemma LoadBareHeader(h: Header, pixels: seq<uint8>)
    requires h.idLength == 0
    ensures LoadHeader(true, HeaderBytes(h) + pixels) == Ok((h, pixels))
  {
    LoadHeaderRoundTrip(h, [], pixels);
    assert HeaderBytes(h) + [] + pixels == HeaderBytes(h) + pixels;
  }

  /**
   * A file made of a header (no image ID, no colour map, an uncompressed
   * type) followed by `height` rows of `rowBytes` bytes decodes to exactly
   * those rows, with the header's geometry, layout and flip.
   */
  lemma DecodeUncompressedFile(h: Header, rows: seq<seq<uint8>>, rowBytes: nat, prior: PixelLayout)
    requires h.idLength == 0 && h.colorMapSpec.length == 0
    requires ImageTypeOf(h.imageType).Some? && IsUncompressed(ImageTypeOf(h.imageType).value)
    requires |rows| == h.imageSpec.height
    requires forall j :: 0 <= j < |rows| ==> |rows[j]| == rowBytes
    ensures var spec := h.imageSpec;
      Create(true, HeaderBytes(h) + Flatten(rows), rowBytes, prior)
      == Ok(Decoded(spec.width, spec.height, spec.depth,
                    SelectLayout(spec.depth, AlphaBits(spec.descriptor) != 0, prior),
                    if IsBlackWhite(ImageTypeOf(h.imageType).value) then Entries(GreyPalette()) else NoPalette,
                    DescriptorFlip(spec.descriptor), rows))
  {
    LoadBareHeader(h, Flatten(rows));
    ReadRawRowsOfFlatten(rows, rowBytes);
  }

  /**
   * A file made of a header (no image ID, no colour map, an RLE type, a
   * depth of `8 * k` bits) followed by the compressor's output for `height`
   * rows of `width` units decodes to those rows.
   */
  lemma DecodeRleFile(h: Header, lines: seq<seq<Rle.Unit>>, rowBytes: nat, prior: PixelLayout)
    requires h.idLength == 0 && h.colorMapSpec.length == 0
    requires ImageTypeOf(h.imageType).Some? && IsRle(ImageTypeOf(h.imageType).value)
    requires 1 <= h.imageSpec.width && |lines| == h.imageSpec.height
    requires Rle.RowsOf(lines, h.imageSpec.width, h.imageSpec.depth / 8)
    ensures var spec := h.imageSpec;
      Create(true, HeaderBytes(h) + Rle.RleImage(lines), rowBytes, prior)
      == Ok(Decoded(spec.width, spec.height, spec.depth,
                    SelectLayout(spec.depth, AlphaBits(spec.descriptor) != 0, prior),
                    if IsBlackWhite(ImageTypeOf(h.imageType).value) then Entries(GreyPalette()) else NoPalette,
                    DescriptorFlip(spec.descriptor), Rle.RowBytes(lines)))
  {
    var pixels := Rle.RleImage(lines);
    var spec := h.imageSpec;
    LoadBareHeader(h, pixels);
    assert Create(true, HeaderBytes(h) + pixels, rowBytes, prior) == DecodeBody(h, pixels, rowBytes, prior);
    assert ReadPalette(h.colorMapSpec, pixels) == Ok((NoPalette, pixels));
    Rle.RleRoundTrip(lines, [], spec.depth / 8, spec.width);
    assert pixels + [] == pixels;
    DecodeBodyRle(h, pixels, rowBytes, prior, NoPalette, pixels, Rle.RowBytes(lines), []);
  }

  /** The dispatch for an RLE type, once the colour map and the packet loop have succeeded. */
  lemma DecodeBodyRle(h: Header, s: seq<uint8>, rowBytes: nat, prior: PixelLayout,
                      palette: Palette, pixels: seq<uint8>, rows: seq<seq<uint8>>, rest: seq<uint8>)
    requires ImageTypeOf(h.imageType).Some? && IsRle(ImageTypeOf(h.imageType).value)
    requires ReadPalette(h.colorMapSpec, s) == Ok((palette, pixels))
    requires Rle.DecodeRleRows(pixels, h.imageSpec.depth / 8, h.imageSpec.width, h.imageSpec.height, [], []) == Ok((rows, rest))
    ensures var spec := h.imageSpec;
      DecodeBody(h, s, rowBytes, prior)
      == Ok(Decoded(spec.width, spec.height, spec.depth,
                    SelectLayout(spec.depth, AlphaBits(spec.descriptor) != 0, prior),
                    if IsBlackWhite(ImageTypeOf(h.imageType).value) then Entries(GreyPalette()) else palette,
                    DescriptorFlip(spec.descriptor), rows))
  {
    var t := ImageTypeOf(h.imageType).value;
    assert !IsUncompressed(t);
  }
}

=== FILE: encoder.dfy ===
/**
 * The TGA encoder: `Start` writes the fixed header and chooses the pixel
 * layout; `WriteLineRaw` writes one scan line, either verbatim into its slot
 * (uncompressed, filled from the last slot upwards) or run-length encoded and
 * appended at the running output offset.
 *
 * The output stream is a sink mapping each written position to its byte; a
 * write at position `pos` (after a seek) overwrites `|data|` positions and
 * leaves every other position as it was.
 */
module Encoder {
  import opened Bytes
  import opened Results
  import opened TgaHdr
  import opened Tga
  import opened Layout
  import Rle

  /** The bytes written so far, by stream position. */
  type Sink = map<int, uint8>

  /** `sink` holds `data` from position `pos` on. */
  predicate Holds(sink: Sink, pos: int, data: seq<uint8>) {
    forall p :: pos <= p < pos + |data| ==> p in sink && sink[p] == data[p - pos]
  }

  /** Going from `before` to `after` changed, and added, positions in `[lo, hi)` only. */
  predicate Confined(before: Sink, after: Sink, lo: int, hi: int) {
    && (forall p :: p in before && !(lo <= p < hi) ==> p in after && after[p] == before[p])
    && (forall p :: p in after ==> p in before || lo <= p < hi)
  }

  /** `Seek(pos)` followed by `Put(data)`: the bytes are stored one after another from `pos`. */
  function Put(sink: Sink, pos: int, data: seq<uint8>): (r: Sink)
    ensures Holds(r, pos, data)
    ensures Confined(sink, r, pos, pos + |data|)
    decreases |data|
  {
    if |data| == 0 then sink
    else
      Put(sink[pos := data[0]], pos + 1, data[1..])
  }

  lemma ConfinedRefl(s: Sink, a: int)
    ensures Confined(s, s, a, a)
  {
  }

  lemma ConfinedTrans(a: Sink, b: Sink, c: Sink, lo1: int, hi1: int, lo2: int, hi2: int, lo: int, hi: int)
    requires Confined(a, b, lo1, hi1) && Confined(b, c, lo2, hi2)
    requires lo <= lo1 && lo <= lo2 && hi1 <= hi && hi2 <= hi
    ensures Confined(a, c, lo, hi)
  {
  }

  /** Bytes a later write does not reach are still there. */
  lemma HoldsKept(b: Sink, c: Sink, pos: int, data: seq<uint8>, lo: int, hi: int)
    requires Holds(b, pos, data) && Confined(b, c, lo, hi)
    requires pos + |data| <= lo || hi <= pos
    ensures Holds(c, pos, data)
  {
  }

  lemma HoldsAppend(s: Sink, pos: int, a: seq<uint8>, b: seq<uint8>)
    requires Holds(s, pos, a) && Holds(s, pos + |a|, b)
    ensures Holds(s, pos, a + b)
  {
  }

  /** Two writes back to back: the second continues where the first ended. */
  lemma PutThenPut(s0: Sink, s1: Sink, s2: Sink, pos: int, a: seq<uint8>, b: seq<uint8>)
    requires Holds(s1, pos, a) && Confined(s0, s1, pos, pos + |a|)
    requires Holds(s2, pos + |a|, b) && Confined(s1, s2, pos + |a|, pos + |a| + |b|)
    ensures Holds(s2, pos, a + b) && Confined(s0, s2, pos, pos + |a + b|)
  {
    HoldsKept(s1, s2, pos, a, pos + |a|, pos + |a| + |b|);
    HoldsAppend(s2, pos, a, b);
    ConfinedTrans(s0, s1, s2, pos, pos + |a|, pos + |a|, pos + |a| + |b|, pos, pos + |a + b|);
  }

  lemma HoldsSlice(s: Sink, pos: int, data: seq<uint8>, a: nat, b: nat)
    requires Holds(s, pos, data) && a <= b <= |data|
    ensures Holds(s, pos + a, data[a..b])
  {
    forall p | pos + a <= p < pos + a + (b - a)
      ensures p in s && s[p] == data[a..b][p - (pos + a)]
    {
      assert data[a..b][p - (pos + a)] == data[p - pos];
    }
  }

  /** The encoder's line-placement state next to its configuration. */
  datatype EncoderState = EncoderState(
    config: EncoderConfig,
    layout: PixelLayout,
    rowBytes: nat,   // bytes per scan line in the selected layout
    soff: int,       // where pixel data starts (uncompressed) or continues (RLE)
    linei: int)      // lines still to be written

  /** The header `Start` writes for an image of `width` by `height` pixels. */
  function StartHeader(config: EncoderConfig, width: int, height: int): (h: Header)
    ensures h.idLength == 0 && h.colorMap == 0 && h.colorMapSpec == ColorMapSpec(0, 0, 0)
    ensures h.imageSpec.xOrigin == 0 && h.imageSpec.yOrigin == 0
    ensures (h.imageSpec.width - width) % 0x1_0000 == 0 && (h.imageSpec.height - height) % 0x1_0000 == 0
    ensures -0x8000 <= width < 0x8000 ==> h.imageSpec.width == width
    ensures -0x8000 <= height < 0x8000 ==> h.imageSpec.height == height
    ensures (h.imageSpec.depth - config.bpp) % 0x100 == 0
    ensures OriginField(h.imageSpec.descriptor) == OrientationCode(TopLeft)
    ensures AlphaBits(h.imageSpec.descriptor) == 0
    ensures ImageTypeOf(h.imageType) == Some(if config.useRLE then RleTrueColor else UncompressedTrueColor)
  {
    var t := if config.useRLE then RleTrueColor else UncompressedTrueColor;
    TypeCodeRoundTrip(t);
    Header(0, 0, TypeCode(t), ColorMapSpec(0, 0, 0),
      ImageSpec(0, 0, WrapInt16(width), WrapInt16(height), WrapUint8(config.bpp), DescriptorFor(TopLeft)))
  }

  /**
   * Writes the header at the stream position `pos`, selects the layout from
   * `bpp` and `hasAlpha` (keeping `prior` for other depths), and sets the pixel
   * data to start right after the header with all `height` lines to come.
   * `rowBytes` is the row size of the selected layout for `width` pixels.
   */
  function Start(config: EncoderConfig, width: int, height: int, rowBytes: nat, prior: PixelLayout, sink: Sink, pos: int)
    : (r: (EncoderState, Sink))
    ensures r.0.config == config && r.0.rowBytes == rowBytes
    ensures r.0.layout == SelectLayout(config.bpp, config.hasAlpha, prior)
    ensures r.0.soff == pos + HeaderSize
    ensures r.0.linei == height
    ensures Holds(r.1, pos, HeaderBytes(StartHeader(config, width, height)))
    ensures Confined(sink, r.1, pos, r.0.soff)
  {
    var header := StartHeader(config, width, height);
    var layout := SelectLayout(config.bpp, config.hasAlpha, prior);
    (EncoderState(config, layout, rowBytes, pos + HeaderSize, height), Put(sink, pos, HeaderBytes(header)))
  }

  /** `sizeof(T)` of the unit `WriteRLE` is instantiated with for a bit depth; 0 when there is none. */
  function UnitSize(bpp: int): (k: nat)
    ensures k != 0 <==> IsSupportedDepth(bpp)
    ensures k != 0 ==> k * 8 == bpp
  {
    match bpp
    case 32 => 4
    case 24 => 3
    case 16 => 2
    case 8 => 1
    case _ => 0
  }

  lemma DivMul(a: nat, k: nat)
    requires 1 <= k <= 4
    ensures (a / k) * k <= a
    ensures (a * k) / k == a
  {
  }

  /** The first `n` units of `k` bytes of a line: what `WriteRLE` reads. */
  function LineUnits(line: seq<uint8>, n: nat, k: nat): (r: seq<Rle.Unit>)
    requires n * k <= |line|
    ensures |r| == n && Rle.UnitsOfSize(r, k)
    ensures Flatten(r) == line[..n * k]
  {
    Chunk(line[..n * k], n, k)
  }

  /** The bytes one RLE-mode line produces: the compressor over `rowBytes / k` units. */
  function RleLineBytes(line: seq<uint8>, rowBytes: nat, k: nat): seq<uint8>
    requires 1 <= k <= 4 && rowBytes <= |line|
  {
    DivMul(rowBytes, k);
    Rle.WriteRle(LineUnits(line, rowBytes / k, k))
  }

  /**
   * Writes one scan line.  In RLE mode the compressed line is appended at
   * `soff`, which then moves past it; a depth without a unit type returns
   * before anything is written or updated.  Otherwise the line is copied
   * verbatim into the slot of the line counter, counted down first.
   */
  function WriteLineRaw(st: EncoderState, sink: Sink, line: seq<uint8>): (r: (EncoderState, Sink))
    requires st.rowBytes <= |line|
    ensures r.0.config == st.config && r.0.layout == st.layout && r.0.rowBytes == st.rowBytes
    ensures st.config.useRLE && !IsSupportedDepth(st.config.bpp) ==> r == (st, sink)
    ensures st.config.useRLE && IsSupportedDepth(st.config.bpp) ==>
      && r.0.linei == st.linei - 1
      && r.0.soff == st.soff + |RleLineBytes(line, st.rowBytes, UnitSize(st.config.bpp))|
      && r.1 == Put(sink, st.soff, RleLineBytes(line, st.rowBytes, UnitSize(st.config.bpp)))
    ensures !st.config.useRLE ==>
      && r.0.linei == st.linei - 1 && r.0.soff == st.soff
      && r.1 == Put(sink, st.soff + st.rowBytes * (st.linei - 1), line[..st.rowBytes])
  {
    if st.config.useRLE then
      var k := UnitSize(st.config.bpp);
      if k == 0 then (st, sink)
      else
        var data := RleLineBytes(line, st.rowBytes, k);
        (st.(linei := st.linei - 1, soff := st.soff + |data|), Put(sink, st.soff, data))
    else
      var linei := st.linei - 1;
      (st.(linei := linei), Put(sink, st.soff + st.rowBytes * linei, line[..st.rowBytes]))
  }

  predicate LinesFit(lines: seq<seq<uint8>>, rowBytes: nat) {
    forall j :: 0 <= j < |lines| ==> rowBytes <= |lines[j]|
  }

  /** `WriteLineRaw` called once per line, in order. */
  function WriteLines(st: EncoderState, sink: Sink, lines: seq<seq<uint8>>): (r: (EncoderState, Sink))
    requires LinesFit(lines, st.rowBytes)
    ensures r.0.config == st.config && r.0.layout == st.layout && r.0.rowBytes == st.rowBytes
    decreases |lines|
  {
    if |lines| == 0 then (st, sink)
    else
      var (st', sink') := WriteLineRaw(st, sink, lines[0]);
      WriteLines(st', sink', lines[1..])
  }

  /**
   * `WriteLines` under a second name.  The wrapper exists only to keep the
   * placement inductions (`RawPlaced`, `RlePlaced`) stable: hypothesis and goal
   * mention the same non-recursive term, so the solver does not unfold the
   * line loop at a different depth.  It adds no new concept.
   */
  function Written(st: EncoderState, sink: Sink, lines: seq<seq<uint8>>): (EncoderState, Sink)
    requires LinesFit(lines, st.rowBytes)
  {
    WriteLines(st, sink, lines)
  }

  lemma WriteLinesCons(st: EncoderState, sink: Sink, lines: seq<seq<uint8>>)
    requires 0 < |lines| && LinesFit(lines, st.rowBytes)
    ensures var first := WriteLineRaw(st, sink, lines[0]);
      LinesFit(lines[1..], first.0.rowBytes) && Written(st, sink, lines) == Written(first.0, first.1, lines[1..])
  {
  }

  // ---------------------------------------------------------------------------
  // Uncompressed placement
  // ---------------------------------------------------------------------------

  /** The first `rowBytes` bytes of each line: what one uncompressed write stores. */
  function Truncated(lines: seq<seq<uint8>>, rowBytes: nat): (r: seq<seq<uint8>>)
    requires LinesFit(lines, rowBytes)
    ensures |r| == |lines| && forall j :: 0 <= j < |lines| ==> r[j] == lines[j][..rowBytes]
  {
    seq(|lines|, j requires 0 <= j < |lines| => lines[j][..rowBytes])
  }

  function Reverse<T>(xs: seq<T>): (r: seq<T>)
    ensures |r| == |xs| && forall y :: 0 <= y < |xs| ==> r[y] == xs[|xs| - 1 - y]
  {
    seq(|xs|, y requires 0 <= y < |xs| => xs[|xs| - 1 - y])
  }

  /** Bottom-up filling: the rows in slot order are the lines, truncated, last line first. */
  lemma ReverseTruncatedCons(lines: seq<seq<uint8>>, rb: nat)
    requires 0 < |lines| && LinesFit(lines, rb)
    ensures LinesFit(lines[1..], rb)
    ensures Reverse(Truncated(lines, rb)) == Reverse(Truncated(lines[1..], rb)) + [lines[0][..rb]]
  {
    assert LinesFit(lines[1..], rb);
    var a := Reverse(Truncated(lines, rb));
    var b := Reverse(Truncated(lines[1..], rb)) + [lines[0][..rb]];
    assert |a| == |b|;
    forall y | 0 <= y < |a|
      ensures a[y] == b[y]
    {
      if y < |a| - 1 {
        assert lines[1..][|lines| - 2 - y] == lines[|lines| - 1 - y];
      }
    }
  }

  /**
   * Uncompressed placement: starting with line counter `L`, `n` calls fill
   * the `n` slots of `[lo, hi)`, where `lo = soff + rowBytes * (L - n)` and
   * `hi = soff + rowBytes * L`, from the top down, so the region holds the
   * lines' bytes last line first; nothing outside it changes, and `soff`
   * never moves.
   */
  lemma RawPlacement(st: EncoderState, sink: Sink, lines: seq<seq<uint8>>, lo: int, hi: int)
    requires !st.config.useRLE && LinesFit(lines, st.rowBytes)
    requires lo == st.soff + st.rowBytes * (st.linei - |lines|) && hi == st.soff + st.rowBytes * st.linei
    ensures WriteLines(st, sink, lines).0.soff == st.soff
    ensures WriteLines(st, sink, lines).0.linei == st.linei - |lines|
    ensures Holds(WriteLines(st, sink, lines).1, lo, Flatten(Reverse(Truncated(lines, st.rowBytes))))
    ensures Confined(sink, WriteLines(st, sink, lines).1, lo, hi)
  {
    RawPlaced(st, sink, lines, lo, hi);
  }

  lemma {:induction false} RawPlaced(st: EncoderState, sink: Sink, lines: seq<seq<uint8>>, lo: int, hi: int)
    requires !st.config.useRLE && LinesFit(lines, st.rowBytes)
    requires lo == st.soff + st.rowBytes * (st.linei - |lines|) && hi == st.soff + st.rowBytes * st.linei
    ensures Written(st, sink, lines).0.soff == st.soff
    ensures Written(st, sink, lines).0.linei == st.linei - |lines|
    ensures Holds(Written(st, sink, lines).1, lo, Flatten(Reverse(Truncated(lines, st.rowBytes))))
    ensures Confined(sink, Written(st, sink, lines).1, lo, hi)
    decreases |lines|
  {
    var rb := st.rowBytes;
    if |lines| == 0 {
      assert Written(st, sink, lines) == (st, sink);
      assert Reverse(Truncated(lines, rb)) == [];
      ConfinedRefl(sink, lo);
    } else {
      var st1, sink1, slot := RawStep(st, sink, lines, lo, hi);
      RawPlaced(st1, sink1, lines[1..], lo, slot);
      var sink' := Written(st1, sink1, lines[1..]).1;
      var below := RawLayoutCons(lines, rb);
      PutBelow(sink, sink1, sink', lo, below, lines[0][..rb]);
    }
  }

  /** The first uncompressed write of `RawPlaced`: its slot, and the state the other lines start from. */
  lemma RawStep(st: EncoderState, sink: Sink, lines: seq<seq<uint8>>, lo: int, hi: int)
    returns (st1: EncoderState, sink1: Sink, slot: int)
    requires !st.config.useRLE && 0 < |lines| && LinesFit(lines, st.rowBytes)
    requires lo == st.soff + st.rowBytes * (st.linei - |lines|) && hi == st.soff + st.rowBytes * st.linei
    ensures !st1.config.useRLE && st1.rowBytes == st.rowBytes && LinesFit(lines[1..], st1.rowBytes)
    ensures st1.soff == st.soff && st1.linei == st.linei - 1
    ensures lo == st1.soff + st1.rowBytes * (st1.linei - |lines[1..]|) && slot == st1.soff + st1.rowBytes * st1.linei
    ensures lo + (|lines| - 1) * st.rowBytes == slot && slot + st.rowBytes == hi
    ensures Written(st, sink, lines) == Written(st1, sink1, lines[1..])
    ensures Holds(sink1, slot, lines[0][..st.rowBytes]) && Confined(sink, sink1, slot, slot + st.rowBytes)
  {
    WriteLinesCons(st, sink, lines);
    var first := WriteLineRaw(st, sink, lines[0]);
    st1, sink1 := first.0, first.1;
    slot := RawSlotBounds(st.soff, st.rowBytes, st.linei, |lines|, lo, hi);
  }

  /** Where the first line goes: the slot just above the remaining lines' range. */
  lemma RawSlotBounds(soff: int, rb: nat, L: int, n: nat, lo: int, hi: int) returns (slot: int)
    requires 0 < n && lo == soff + rb * (L - n) && hi == soff + rb * L
    ensures slot == soff + rb * (L - 1)
    ensures lo == soff + rb * ((L - 1) - (n - 1))
    ensures lo + (n - 1) * rb == slot && slot + rb == hi
  {
    slot := soff + rb * (L - 1);
    assert (L - 1) - (n - 1) == L - n;
    SlotArith(rb, L, n);
    MulSucc(L - 1, rb);
  }

  /** The bottom-up image of the lines is the image of the later lines with the first line on top. */
  lemma RawLayoutCons(lines: seq<seq<uint8>>, rb: nat) returns (below: seq<uint8>)
    requires 0 < |lines| && LinesFit(lines, rb)
    ensures LinesFit(lines[1..], rb)
    ensures below == Flatten(Reverse(Truncated(lines[1..], rb)))
    ensures |below| == (|lines| - 1) * rb
    ensures Flatten(Reverse(Truncated(lines, rb))) == below + lines[0][..rb]
  {
    ReverseTruncatedCons(lines, rb);
    below := Flatten(Reverse(Truncated(lines[1..], rb)));
    FlattenLength(Reverse(Truncated(lines[1..], rb)), rb);
    FlattenAppend(Reverse(Truncated(lines[1..], rb)), [lines[0][..rb]]);
    assert Flatten([lines[0][..rb]]) == lines[0][..rb];
  }

  lemma SlotArith(rb: nat, L: int, n: int)
    ensures rb * (L - n) + (n - 1) * rb == rb * (L - 1)
  {
  }

  /** A line stored in its slot, then the lines below it: together they fill the range from `lo` up. */
  lemma PutBelow(s0: Sink, s1: Sink, s2: Sink, lo: int, below: seq<uint8>, line: seq<uint8>)
    requires Holds(s1, lo + |below|, line) && Confined(s0, s1, lo + |below|, lo + |below| + |line|)
    requires Holds(s2, lo, below) && Confined(s1, s2, lo, lo + |below|)
    ensures Holds(s2, lo, below + line) && Confined(s0, s2, lo, lo + |below| + |line|)
  {
    HoldsKept(s1, s2, lo + |below|, line, lo, lo + |below|);
    HoldsAppend(s2, lo, below, line);
    ConfinedTrans(s0, s1, s2, lo + |below|, lo + |below| + |line|, lo, lo + |below|, lo, lo + |below| + |line|);
  }

  /**
   * With a line counter of `h` and `h` lines, slot `y` of `[soff, soff + h * rowBytes)`
   * holds line `h - 1 - y`: the first line written is the last row of the
   * pixel data.  Nothing is written outside the slots.
   */
  lemma RawSlots(st: EncoderState, sink: Sink, lines: seq<seq<uint8>>, y: int)
    requires !st.config.useRLE && LinesFit(lines, st.rowBytes) && st.linei == |lines|
    requires 0 <= y < |lines|
    ensures var sink' := WriteLines(st, sink, lines).1;
      && Holds(sink', st.soff + st.rowBytes * y, lines[|lines| - 1 - y][..st.rowBytes])
      && Confined(sink, sink', st.soff, st.soff + st.rowBytes * |lines|)
  {
    var rb := st.rowBytes;
    var flat := Flatten(Reverse(Truncated(lines, rb)));
    var n := |lines|;
    var off := SlotContents(lines, rb, y);
    assert st.soff + rb * (st.linei - n) == st.soff;
    RawPlacement(st, sink, lines, st.soff, st.soff + rb * n);
    var sink' := WriteLines(st, sink, lines).1;
    HoldsSlice(sink', st.soff, flat, off, off + rb);
  }

  /** Slot `y` of the bottom-up region is line `|lines| - 1 - y`. */
  lemma SlotContents(lines: seq<seq<uint8>>, rb: nat, y: int) returns (off: nat)
    requires LinesFit(lines, rb) && 0 <= y < |lines|
    ensures off == rb * y
    ensures var flat := Flatten(Reverse(Truncated(lines, rb)));
      off + rb <= |flat| && flat[off..off + rb] == lines[|lines| - 1 - y][..rb]
  {
    var rows := Reverse(Truncated(lines, rb));
    FlattenSlice(rows, rb, y);
    off := y * rb;
    assert rows[y] == lines[|lines| - 1 - y][..rb];
  }

  // ---------------------------------------------------------------------------
  // RLE placement
  // ---------------------------------------------------------------------------

  /** The compressed lines, each one appended right after the previous. */
  function RleStream(lines: seq<seq<uint8>>, rowBytes: nat, k: nat): seq<uint8>
    requires 1 <= k <= 4 && LinesFit(lines, rowBytes)
    decreases |lines|
  {
    if |lines| == 0 then []
    else RleLineBytes(lines[0], rowBytes, k) + RleStream(lines[1..], rowBytes, k)
  }

  /**
   * RLE placement: the lines' compressed bytes follow one another from
   * `soff`, `soff` ends just past them, the line counter drops by one per
   * line, and nothing outside the bytes written is touched.
   */
  lemma RlePlacement(st: EncoderState, sink: Sink, lines: seq<seq<uint8>>)
    requires st.config.useRLE && IsSupportedDepth(st.config.bpp) && LinesFit(lines, st.rowBytes)
    ensures WriteLines(st, sink, lines).0.soff == st.soff + |RleStream(lines, st.rowBytes, UnitSize(st.config.bpp))|
    ensures WriteLines(st, sink, lines).0.linei == st.linei - |lines|
    ensures Holds(WriteLines(st, sink, lines).1, st.soff, RleStream(lines, st.rowBytes, UnitSize(st.config.bpp)))
    ensures Confined(sink, WriteLines(st, sink, lines).1, st.soff, st.soff + |RleStream(lines, st.rowBytes, UnitSize(st.config.bpp))|)
  {
    RlePlaced(st, sink, lines);
  }

  lemma {:induction false} RlePlaced(st: EncoderState, sink: Sink, lines: seq<seq<uint8>>)
    requires st.config.useRLE && IsSupportedDepth(st.config.bpp) && LinesFit(lines, st.rowBytes)
    ensures Written(st, sink, lines).0.soff == st.soff + |RleStream(lines, st.rowBytes, UnitSize(st.config.bpp))|
    ensures Written(st, sink, lines).0.linei == st.linei - |lines|
    ensures Holds(Written(st, sink, lines).1, st.soff, RleStream(lines, st.rowBytes, UnitSize(st.config.bpp)))
    ensures Confined(sink, Written(st, sink, lines).1, st.soff, st.soff + |RleStream(lines, st.rowBytes, UnitSize(st.config.bpp))|)
    decreases |lines|
  {
    if |lines| == 0 {
      ConfinedRefl(sink, st.soff);
    } else {
      var k := UnitSize(st.config.bpp);
      WriteLinesCons(st, sink, lines);
      var one := WriteLineRaw(st, sink, lines[0]);
      var st1, sink1 := one.0, one.1;
      var first := RleLineBytes(lines[0], st.rowBytes, k);
      RlePlaced(st1, sink1, lines[1..]);
      var more := RleStream(lines[1..], st.rowBytes, k);
      assert RleStream(lines, st.rowBytes, k) == first + more;
      var sink' := Written(st1, sink1, lines[1..]).1;
      PutThenPut(sink, sink1, sink', st.soff, first, more);
    }
  }

  /** Lines an unsupported depth asks to compress leave the encoder and the stream exactly as they were. */
  lemma {:induction false} RleUnsupportedDepthWritesNothing(st: EncoderState, sink: Sink, lines: seq<seq<uint8>>)
    requires st.config.useRLE && !IsSupportedDepth(st.config.bpp) && LinesFit(lines, st.rowBytes)
    ensures WriteLines(st, sink, lines) == (st, sink)
    decreases |lines|
  {
    if |lines| > 0 {
      assert LinesFit(lines[1..], st.rowBytes);
      RleUnsupportedDepthWritesNothing(st, sink, lines[1..]);
    }
  }
}

=== FILE: layout.dfy ===
/**
 * Pixel-layout selection.  Both the decoder and the encoder choose the packed
 * pixel layout from the bit depth and an alpha flag with the same switch; the
 * layout itself (the library's raster format) is represented here as a tag
 * with its channel masks.
 */
module Layout {

  datatype PixelLayout =
    | Unset                                                  // no `Set*` call has been made
    | Le32(rMask: bv32, gMask: bv32, bMask: bv32, aMask: bv32)  // `Set32le`
    | Le24(rMask: bv32, gMask: bv32, bMask: bv32)              // `Set24le`
    | Le16(rMask: bv32, gMask: bv32, bMask: bv32)              // `Set16le`
    | Gray8Alpha                                             // `Set8A`: grey byte plus alpha byte
    | Indexed8                                               // `Set8`: one byte per pixel

  /** Bytes occupied by one pixel. */
  function PixelBytes(l: PixelLayout): nat {
    match l
    case Unset => 0
    case Le32(_, _, _, _) => 4
    case Le24(_, _, _) => 3
    case Le16(_, _, _) => 2
    case Gray8Alpha => 2
    case Indexed8 => 1
  }

  /** Whether the layout stores an alpha channel. */
  predicate HasAlphaChannel(l: PixelLayout) {
    (l.Le32? && l.aMask != 0) || l.Gray8Alpha?
  }

  predicate IsSupportedDepth(depth: int) {
    depth == 32 || depth == 24 || depth == 16 || depth == 8
  }

  /**
   * The layout for `depth` bits per pixel; `alpha` is the alpha request (a
   * nonzero alpha-bit count when decoding, `hasAlpha` when encoding).  Any
   * other depth leaves the current layout as it was.
   */
  function SelectLayout(depth: int, alpha: bool, current: PixelLayout): (r: PixelLayout)
    ensures !IsSupportedDepth(depth) ==> r == current
    ensures IsSupportedDepth(depth) ==> PixelBytes(r) * 8 == depth
    ensures IsSupportedDepth(depth) ==> (HasAlphaChannel(r) <==> alpha && (depth == 32 || depth == 16))
    ensures depth == 16 ==> (r.Le16? <==> !alpha)
    ensures depth == 8 ==> r.Indexed8?
  {
    match depth
    case 32 => Le32(0x00ff0000, 0x0000ff00, 0x000000ff, if alpha then 0xff000000 else 0)
    case 24 => Le24(0xff0000, 0x00ff00, 0x0000ff)
    case 16 => if alpha then Gray8Alpha else Le16(0x7C00, 0x03E0, 0x001F)
    case 8 => Indexed8
    case _ => current
  }

  /** Channel masks of a layout are pairwise disjoint and fit in the pixel's bytes. */
  predicate WellFormedMasks(l: PixelLayout) {
    match l
    case Le32(r, g, b, a) => r & g == 0 && r & b == 0 && g & b == 0 && (r | g | b) & a == 0
    case Le24(r, g, b) => r & g == 0 && r & b == 0 && g & b == 0 && r | g | b <= 0xFF_FFFF
    case Le16(r, g, b) => r & g == 0 && r & b == 0 && g & b == 0 && r | g | b <= 0xFFFF
    case _ => true
  }

  /** The mask of byte `i` of a pixel word (byte 0 is the first byte in memory, little-endian). */
  function ByteMask(i: nat): bv32
    requires i < 4
  {
    0xFF << (8 * i)
  }

  /** The mask of the `i`-th five-bit field of a 16-bit pixel, counting from bit 0. */
  function FiveBitMask(i: nat): bv32
    requires i < 3
  {
    0x1F << (5 * i)
  }

  /**
   * Every selected layout has disjoint channel masks, and each channel sits
   * where the file keeps it: at 32 and 24 bits blue is byte 0, green byte 1
   * and red byte 2 (B, G, R in the file), with alpha in byte 3 at 32 bits
   * only when requested; at 16 bits without alpha blue, green and red are
   * bits 0..4, 5..9 and 10..14.
   */
  lemma SelectedMasksWellFormed(depth: int, alpha: bool)
    ensures WellFormedMasks(SelectLayout(depth, alpha, Unset))
    ensures depth == 32 || depth == 24 ==> var l := SelectLayout(depth, alpha, Unset);
      l.bMask == ByteMask(0) && l.gMask == ByteMask(1) && l.rMask == ByteMask(2)
    ensures depth == 32 ==> var l := SelectLayout(depth, alpha, Unset);
      l.aMask == if alpha then ByteMask(3) else 0
    ensures depth == 16 && !alpha ==> var l := SelectLayout(depth, alpha, Unset);
      l.bMask == FiveBitMask(0) && l.gMask == FiveBitMask(1) && l.rMask == FiveBitMask(2)
  {
  }
}

=== FILE: results.dfy ===
/** Failure-carrying wrappers shared by the decoder and the encoder models. */
module Results {

  /** A value that may be absent: a short read, a missing packet. */
  datatype Option<+T> = None | Some(value: T)

  /** The outcome of an operation that either produces a value or fails with an error. */
  datatype Result<+T, +E> = Ok(value: T) | Fail(error: E)
}

=== FILE: rle.dfy ===
/**
 * The run-length packet engine of image types 9, 10 and 11.  A packet is a
 * control byte followed by pixel units: bit 7 set means "repeat the next
 * unit (count field + 1) times", bit 7 clear means "(count field + 1) units
 * follow verbatim".
 *
 * The encoder is the templated row compressor of TgaWrite.cpp as written: its
 * raw-run scan compares the first unit with itself and therefore never
 * advances, so it emits repeat packets only.  The decoder is the packet loop of
 * the raster's `Create`, which accumulates units until the running count equals
 * the image width exactly and then closes the row.
 */
module Rle {
  import opened Bytes
  import opened Results
  import Tga

  /** One pixel unit: the 1, 2, 3 or 4 bytes of a pixel. */
  type Unit = seq<uint8>

  predicate UnitsOfSize(units: seq<Unit>, k: nat) {
    forall i :: 0 <= i < |units| ==> |units[i]| == k
  }

  // ===========================================================================
  // Encoder
  // ===========================================================================

  /**
   * The raw-run scan: advances while the unit at `run` differs from the first
   * unit.  Started at 0 it compares the first unit with itself.
   */
  function RawScan(units: seq<Unit>, run: nat): (n: nat)
    requires 0 < |units| && run <= |units|
    ensures run <= n <= |units|
    ensures forall i :: run <= i < n ==> units[i] != units[0]
    ensures n < |units| ==> units[n] == units[0]
    decreases |units| - run
  {
    if run < |units| && units[run] != units[0] then RawScan(units, run + 1) else run
  }

  /** The repeat scan: the maximal prefix, from `run` on, of units equal to the first. */
  function RepeatScan(units: seq<Unit>, run: nat): (n: nat)
    requires 0 < |units| && run <= |units|
    ensures run <= n <= |units|
    ensures forall i :: run <= i < n ==> units[i] == units[0]
    ensures n < |units| ==> units[n] != units[0]
    decreases |units| - run
  {
    if run < |units| && units[run] == units[0] then RepeatScan(units, run + 1) else run
  }

  /** Started at 0, the raw scan stops at once: the first unit equals itself. */
  lemma RawScanNeverAdvances(units: seq<Unit>)
    requires 0 < |units|
    ensures RawScan(units, 0) == 0
  {
  }

  /** Started at 0, the repeat scan takes at least one unit, and exactly the run of the first unit. */
  lemma RepeatScanIsMaximalRun(units: seq<Unit>)
    requires 0 < |units|
    ensures var n := RepeatScan(units, 0); 1 <= n && units[..n] == Copies(units[0], n)
  {
  }

  /** The stream is a sequence of repeat packets over `k`-byte units and nothing else. */
  predicate RepeatOnly(s: seq<uint8>, k: nat)
    decreases |s|
  {
    |s| == 0 || (|s| >= 1 + k && Tga.IsRepeatPacket(s[0]) && RepeatOnly(s[1 + k..], k))
  }

  /**
   * Emission of a run of `run` copies of `u`: 128-unit packets with control
   * byte 255 while at least 128 remain, then one packet with control byte
   * `run + 127` for a remainder of 1..127.
   */
  function RepeatPackets(u: Unit, run: nat): (r: seq<uint8>)
    ensures RepeatOnly(r, |u|)
    ensures |r| == 0 <==> run == 0
    decreases run
  {
    if run >= 128 then
      var rest := RepeatPackets(u, run - 128);
      assert ([255] + u + rest)[1 + |u|..] == rest;
      [255] + u + rest
    else if run > 0 then
      assert ([run + 127] + u)[1 + |u|..] == [];
      [run + 127] + u
    else
      []
  }

  /** One more full 128-unit packet for every 128 units of run. */
  lemma PacketCountStep(run: int)
    requires run >= 128
    ensures (run + 127) / 128 == (run - 128 + 127) / 128 + 1
  {
  }

  /** A run of `run` units costs one packet (control byte and unit) per started 128 units. */
  lemma {:induction false} RepeatPacketsLength(u: Unit, run: nat)
    ensures |RepeatPackets(u, run)| == (run + 127) / 128 * (1 + |u|)
    decreases run
  {
    if run >= 128 {
      RepeatPacketsLength(u, run - 128);
      PacketCountStep(run);
      RepeatPacketsLong(u, run, []);
      MulSucc((run - 128 + 127) / 128, 1 + |u|);
    }
  }

  /**
   * Emission of a raw run as written: 127-unit packets with control byte 127,
   * then the remainder `n` with control byte `n`.  It is only ever called
   * with an empty run (see `RawScanNeverAdvances`).
   */
  function RawPackets(units: seq<Unit>): (r: seq<uint8>)
    ensures |r| == 0 <==> |units| == 0
    ensures 0 < |units| ==> r[0] == (if |units| < 127 then |units| else 127) as uint8
    ensures 0 < |units| ==> !Tga.IsRepeatPacket(r[0])
    decreases |units|
  {
    if |units| >= 127 then [127 as uint8] + Flatten(units[..127]) + RawPackets(units[127..])
    else if |units| > 0 then [|units| as uint8] + Flatten(units)
    else []
  }

  /** The row compressor: raw scan and emission, then repeat scan and emission, until the row is used up. */
  function WriteRle(units: seq<Unit>): (r: seq<uint8>)
    ensures |r| == 0 <==> |units| == 0
    ensures 0 < |units| ==> Tga.IsRepeatPacket(r[0])
    decreases |units|
  {
    if |units| == 0 then []
    else
      var raw := RawScan(units, 0);
      assert raw == 0 by { RawScanNeverAdvances(units); }
      var rest := units[raw..];
      RawPackets(units[..raw]) +
        if |rest| == 0 then []
        else
          var run := RepeatScan(rest, 0);
          RepeatPackets(rest[0], run) + WriteRle(rest[run..])
  }

  /** One outer iteration of the compressor: one maximal run, emitted as repeat packets. */
  lemma WriteRleStep(units: seq<Unit>)
    requires 0 < |units|
    ensures var run := RepeatScan(units, 0);
      && 1 <= run
      && units[..run] == Copies(units[0], run)
      && WriteRle(units) == RepeatPackets(units[0], run) + WriteRle(units[run..])
  {
    RawScanNeverAdvances(units);
    RepeatScanIsMaximalRun(units);
    assert units[0..] == units;
  }

  lemma {:induction false} RepeatOnlyAppend(a: seq<uint8>, b: seq<uint8>, k: nat)
    requires RepeatOnly(a, k) && RepeatOnly(b, k)
    ensures RepeatOnly(a + b, k)
    decreases |a|
  {
    if |a| > 0 {
      assert (a + b)[1 + k..] == a[1 + k..] + b;
      RepeatOnlyAppend(a[1 + k..], b, k);
    } else {
      assert a + b == b;
    }
  }

  /** Every control byte the compressor writes has bit 7 set: it never writes a raw packet. */
  lemma {:induction false} WriteRleOnlyRepeatPackets(units: seq<Unit>, k: nat)
    requires UnitsOfSize(units, k)
    ensures RepeatOnly(WriteRle(units), k)
    decreases |units|
  {
    if |units| > 0 {
      WriteRleStep(units);
      var run := RepeatScan(units, 0);
      WriteRleOnlyRepeatPackets(units[run..], k);
      RepeatOnlyAppend(RepeatPackets(units[0], run), WriteRle(units[run..]), k);
    }
  }

  // ===========================================================================
  // Decoder
  // ===========================================================================

  /** Bytes of payload that follow control byte `c` for `k`-byte units. */
  function PayloadSize(c: uint8, k: nat): nat {
    if Tga.IsRepeatPacket(c) then k else (Tga.CountField(c) + 1) * k
  }

  /**
   * Reads one packet from the front of `s`: the units it yields and the
   * bytes after it.  `None` when the control byte or its payload is missing.
   */
  function DecodePacket(s: seq<uint8>, k: nat): (r: Option<(seq<Unit>, seq<uint8>)>)
    ensures r.Some? ==> UnitsOfSize(r.value.0, k)
    ensures r.Some? ==> |r.value.1| < |s| && r.value.1 == s[|s| - |r.value.1|..]
  {
    if |s| == 0 then None
    else
      var c := s[0];
      var n := Tga.CountField(c) + 1;
      if 1 + PayloadSize(c, k) > |s| then None
      else if Tga.IsRepeatPacket(c) then Some((Copies(s[1..1 + k], n), s[1 + k..]))
      else Some((Chunk(s[1..1 + n * k], n, k), s[1 + n * k..]))
  }

  /**
   * What one packet means: present exactly when the control byte and its
   * payload are there; `count + 1` units, copies of one unit for a repeat
   * packet and the payload cut into units for a raw packet.
   */
  lemma DecodePacketSpec(s: seq<uint8>, k: nat)
    ensures DecodePacket(s, k).Some? <==> 0 < |s| && 1 + PayloadSize(s[0], k) <= |s|
    ensures DecodePacket(s, k).Some? ==>
      var units := DecodePacket(s, k).value.0;
      && |units| == Tga.CountField(s[0]) + 1
      && DecodePacket(s, k).value.1 == s[1 + PayloadSize(s[0], k)..]
      && (Tga.IsRepeatPacket(s[0]) ==> units == Copies(s[1..1 + k], |units|))
      && (!Tga.IsRepeatPacket(s[0]) ==> Flatten(units) == s[1..1 + |units| * k])
  {
  }

  datatype RleError =
    | TruncatedStream   // the stream ended inside a packet
    | RowOverrun        // a packet carried the row past its width

  /**
   * The packet loop: while fewer than `height` rows are complete, read a
   * packet and add its units to the current row `acc`; a row is complete
   * when it holds exactly `width` units.  Yields the rows (as bytes) and the
   * unread rest of the stream.
   */
  function DecodeRleRows(s: seq<uint8>, k: nat, width: int, height: int, acc: seq<Unit>, rows: seq<seq<uint8>>)
    : (r: Result<(seq<seq<uint8>>, seq<uint8>), RleError>)
    requires UnitsOfSize(acc, k) && (|acc| == 0 || |acc| < width)
    ensures r.Ok? ==> |rows| <= |r.value.0| && r.value.0[..|rows|] == rows
    ensures r.Ok? ==> |r.value.0| == if |rows| < height then height else |rows|
    ensures r.Ok? ==> forall i :: |rows| <= i < |r.value.0| ==> |r.value.0[i]| == width * k
    ensures r.Ok? ==> |r.value.1| <= |s| && r.value.1 == s[|s| - |r.value.1|..]
    decreases |s|, 0
  {
    if |rows| >= height then Ok((rows, s))
    else
      match DecodePacket(s, k)
      case None => Fail(TruncatedStream)
      case Some((units, rest)) => FinishPacket(rest, k, width, height, acc + units, rows)
  }

  /** After a packet: close the row if it is exactly full, fail if it overflowed, else keep reading. */
  function FinishPacket(s: seq<uint8>, k: nat, width: int, height: int, acc: seq<Unit>, rows: seq<seq<uint8>>)
    : (r: Result<(seq<seq<uint8>>, seq<uint8>), RleError>)
    requires UnitsOfSize(acc, k) && |rows| < height
    ensures r.Ok? ==> |r.value.0| == height && r.value.0[..|rows|] == rows
    ensures r.Ok? ==> forall i :: |rows| <= i < height ==> |r.value.0[i]| == width * k
    ensures r.Ok? ==> |r.value.1| <= |s| && r.value.1 == s[|s| - |r.value.1|..]
    ensures |acc| > width ==> r == Fail(RowOverrun)
    decreases |s|, 1
  {
    if |acc| == width then
      FlattenLength(acc, k);
      var r := DecodeRleRows(s, k, width, height, [], rows + [Flatten(acc)]);
      assert r.Ok? ==> r.value.0[..|rows|] == (rows + [Flatten(acc)])[..|rows|];
      r
    else if |acc| > width then Fail(RowOverrun)
    else DecodeRleRows(s, k, width, height, acc, rows)
  }

  // ===========================================================================
  // Round trip
  // ===========================================================================

  /** A repeat packet with control byte `c` in 128..255 yields `c - 127` copies of its unit. */
  lemma DecodeRepeatPacket(c: uint8, u: Unit, rest: seq<uint8>, k: nat)
    requires 128 <= c && |u| == k
    ensures DecodePacket([c] + u + rest, k) == Some((Copies(u, c - 127), rest))
  {
    var s := [c] + u + rest;
    assert s[0] == c && s[1..1 + k] == u && s[1 + k..] == rest;
  }

  /** One turn of the packet loop while rows are still missing. */
  lemma DecodeRleRowsStep(
    s: seq<uint8>, k: nat, width: int, height: int, acc: seq<Unit>, rows: seq<seq<uint8>>,
    units: seq<Unit>, rest: seq<uint8>)
    requires UnitsOfSize(acc, k) && (|acc| == 0 || |acc| < width) && |rows| < height
    requires DecodePacket(s, k) == Some((units, rest))
    ensures DecodeRleRows(s, k, width, height, acc, rows) == FinishPacket(rest, k, width, height, acc + units, rows)
  {
  }

  lemma AppendAssoc<T>(a: seq<T>, b: seq<T>, c: seq<T>)
    ensures a + b + c == a + (b + c)
  {
  }

  lemma AppendSplit<T>(a: seq<T>, b: seq<T>, n: nat)
    requires n <= |b|
    ensures a + b[..n] + b[n..] == a + b
    ensures n == |b| ==> b[n..] == [] && a + b[..n] == a + b
  {
    assert b[..n] + b[n..] == b;
  }

  /** The end of a packet either closes the row (exactly full) or continues it (still short). */
  lemma FinishPacketCases(s: seq<uint8>, k: nat, width: int, height: int, acc: seq<Unit>, rows: seq<seq<uint8>>)
    requires UnitsOfSize(acc, k) && |rows| < height && |acc| <= width
    ensures |acc| == width ==>
      FinishPacket(s, k, width, height, acc, rows) == DecodeRleRows(s, k, width, height, [], rows + [Flatten(acc)])
    ensures |acc| < width ==>
      FinishPacket(s, k, width, height, acc, rows) == DecodeRleRows(s, k, width, height, acc, rows)
  {
  }

  /** One repeat packet at the head of the stream: its copies join the current row. */
  lemma RepeatPacketStep(
    c: uint8, u: Unit, tail: seq<uint8>, k: nat, width: int, height: int,
    acc: seq<Unit>, rows: seq<seq<uint8>>)
    requires 128 <= c && |u| == k
    requires UnitsOfSize(acc, k) && (|acc| == 0 || |acc| < width) && |rows| < height
    ensures DecodeRleRows([c] + u + tail, k, width, height, acc, rows)
         == FinishPacket(tail, k, width, height, acc + Copies(u, c - 127), rows)
  {
    DecodeRepeatPacket(c, u, tail, k);
    DecodeRleRowsStep([c] + u + tail, k, width, height, acc, rows, Copies(u, c - 127), tail);
  }

  /** A run of at most 128 is one packet: control byte `run + 127` and the unit. */
  lemma RepeatPacketsShort(u: Unit, run: nat, rest: seq<uint8>)
    requires 1 <= run <= 128
    ensures RepeatPackets(u, run) + rest == [run + 127] + u + rest
  {
  }

  /** A run of 128 or more starts with a full packet: control byte 255 and the unit. */
  lemma RepeatPacketsLong(u: Unit, run: nat, rest: seq<uint8>)
    requires 128 <= run
    ensures RepeatPackets(u, run) + rest == [255] + u + (RepeatPackets(u, run - 128) + rest)
  {
  }

  /** The packet for a run of at most 128 adds the run to the row and ends. */
  lemma ShortRunDecode(
    u: Unit, run: nat, rest: seq<uint8>, k: nat, width: int, height: int,
    acc: seq<Unit>, rows: seq<seq<uint8>>)
    requires |u| == k && 1 <= run <= 128
    requires UnitsOfSize(acc, k) && |acc| + run <= width && |rows| < height
    ensures DecodeRleRows(RepeatPackets(u, run) + rest, k, width, height, acc, rows)
         == FinishPacket(rest, k, width, height, acc + Copies(u, run), rows)
  {
    RepeatPacketsShort(u, run, rest);
    RepeatPacketStep(run + 127, u, rest, k, width, height, acc, rows);
  }

  /**
   * `DecodeRleRows` under a second name.  The wrapper exists only to keep the
   * induction in `RunDecodes` stable: its hypothesis and its goal then mention
   * the same non-recursive term, so the solver has no call of the packet loop
   * to unfold at a different depth.  It adds no new concept.
   */
  function RowsFrom(s: seq<uint8>, k: nat, width: int, height: int, acc: seq<Unit>, rows: seq<seq<uint8>>)
    : Result<(seq<seq<uint8>>, seq<uint8>), RleError>
    requires UnitsOfSize(acc, k) && (|acc| == 0 || |acc| < width)
  {
    DecodeRleRows(s, k, width, height, acc, rows)
  }

  /** `FinishPacket` under a second name, for the same reason as `RowsFrom`. */
  function RowsAfterPacket(s: seq<uint8>, k: nat, width: int, height: int, acc: seq<Unit>, rows: seq<seq<uint8>>)
    : Result<(seq<seq<uint8>>, seq<uint8>), RleError>
    requires UnitsOfSize(acc, k) && |rows| < height
  {
    FinishPacket(s, k, width, height, acc, rows)
  }

  /** A run longer than 128 starts with one full packet; the rest of the run decodes as `rest` says. */
  lemma LongRunStep(
    u: Unit, run: nat, rest: seq<uint8>, k: nat, width: int, height: int,
    acc: seq<Unit>, rows: seq<seq<uint8>>, total: seq<Unit>)
    requires |u| == k && 128 < run
    requires UnitsOfSize(acc, k) && |acc| + run <= width && |rows| < height
    requires UnitsOfSize(acc + Copies(u, 128), k) && UnitsOfSize(total, k)
    requires RowsFrom(RepeatPackets(u, run - 128) + rest, k, width, height, acc + Copies(u, 128), rows)
          == RowsAfterPacket(rest, k, width, height, total, rows)
    ensures RowsFrom(RepeatPackets(u, run) + rest, k, width, height, acc, rows)
         == RowsAfterPacket(rest, k, width, height, total, rows)
  {
    var tail := RepeatPackets(u, run - 128) + rest;
    var acc' := acc + Copies(u, 128);
    RepeatPacketsLong(u, run, rest);
    RepeatPacketStep(255, u, tail, k, width, height, acc, rows);
    FinishPacketCases(tail, k, width, height, acc', rows);
  }

  /** Decoding the packets for a run of `run` copies of `u` adds exactly those copies to the row. */
  lemma {:induction false} RepeatPacketsDecode(
    u: Unit, run: nat, rest: seq<uint8>, k: nat, width: int, height: int,
    acc: seq<Unit>, rows: seq<seq<uint8>>)
    requires |u| == k && 1 <= run
    requires UnitsOfSize(acc, k) && |acc| + run <= width && |rows| < height
    ensures DecodeRleRows(RepeatPackets(u, run) + rest, k, width, height, acc, rows)
         == FinishPacket(rest, k, width, height, acc + Copies(u, run), rows)
  {
    UnitsWithCopies(acc, u, run, k);
    RunDecodes(u, run, rest, k, width, height, acc, rows, acc + Copies(u, run));
  }

  /** `RepeatPacketsDecode` with the completed row prefix `total` named: one 128-unit packet per step. */
  lemma {:induction false} RunDecodes(
    u: Unit, run: nat, rest: seq<uint8>, k: nat, width: int, height: int,
    acc: seq<Unit>, rows: seq<seq<uint8>>, total: seq<Unit>)
    requires |u| == k && 1 <= run
    requires UnitsOfSize(acc, k) && |acc| + run <= width && |rows| < height
    requires total == acc + Copies(u, run) && UnitsOfSize(total, k)
    ensures RowsFrom(RepeatPackets(u, run) + rest, k, width, height, acc, rows)
         == RowsAfterPacket(rest, k, width, height, total, rows)
    decreases run
  {
    if run <= 128 {
      ShortRunDecode(u, run, rest, k, width, height, acc, rows);
    } else {
      LongRunPrep(u, run, k, width, acc, total);
      RunDecodes(u, run - 128, rest, k, width, height, acc + Copies(u, 128), rows, total);
      LongRunStep(u, run, rest, k, width, height, acc, rows, total);
    }
  }

  /** The bookkeeping of one long-run step: the row after one full packet, and the copies still to come. */
  lemma LongRunPrep(u: Unit, run: nat, k: nat, width: int, acc: seq<Unit>, total: seq<Unit>)
    requires |u| == k && 128 < run && UnitsOfSize(acc, k) && |acc| + run <= width
    requires total == acc + Copies(u, run)
    ensures UnitsOfSize(acc + Copies(u, 128), k) && |acc + Copies(u, 128)| + (run - 128) <= width
    ensures total == acc + Copies(u, 128) + Copies(u, run - 128)
  {
    UnitsWithCopies(acc, u, 128, k);
    CopiesJoin(acc, u, run);
  }

  /** Adding copies of a `k`-byte unit keeps every unit `k` bytes long. */
  lemma UnitsWithCopies(acc: seq<Unit>, u: Unit, n: nat, k: nat)
    requires UnitsOfSize(acc, k) && |u| == k
    ensures UnitsOfSize(acc + Copies(u, n), k)
  {
  }

  lemma CopiesJoin<T>(acc: seq<T>, u: T, run: nat)
    requires 128 < run
    ensures acc + Copies(u, 128) + Copies(u, run - 128) == acc + Copies(u, run)
  {
    CopiesAppend(u, 128, run - 128);
    AppendAssoc(acc, Copies(u, 128), Copies(u, run - 128));
  }

  /** Decoding the compressor's first run of a row adds that run to the row. */
  lemma WriteRleFirstRun(
    units: seq<Unit>, rest: seq<uint8>, k: nat, width: int, height: int,
    acc: seq<Unit>, rows: seq<seq<uint8>>)
    requires 0 < |units| && UnitsOfSize(units, k) && UnitsOfSize(acc, k)
    requires |acc| + |units| <= width && |rows| < height
    ensures var run := RepeatScan(units, 0);
      DecodeRleRows(WriteRle(units) + rest, k, width, height, acc, rows)
      == FinishPacket(WriteRle(units[run..]) + rest, k, width, height, acc + units[..run], rows)
  {
    WriteRleStep(units);
    var run := RepeatScan(units, 0);
    var tail := WriteRle(units[run..]) + rest;
    assert WriteRle(units) + rest == RepeatPackets(units[0], run) + tail;
    RepeatPacketsDecode(units[0], run, tail, k, width, height, acc, rows);
  }

  /** Decoding the compressor's output for the rest of a row completes that row with exactly its units. */
  lemma {:induction false} WriteRleDecode(
    units: seq<Unit>, rest: seq<uint8>, k: nat, width: int, height: int,
    acc: seq<Unit>, rows: seq<seq<uint8>>)
    requires 0 < |units| && UnitsOfSize(units, k) && UnitsOfSize(acc, k)
    requires |acc| + |units| == width && |rows| < height
    ensures DecodeRleRows(WriteRle(units) + rest, k, width, height, acc, rows)
         == DecodeRleRows(rest, k, width, height, [], rows + [Flatten(acc + units)])
    decreases |units|
  {
    WriteRleFirstRun(units, rest, k, width, height, acc, rows);
    var run := RepeatScan(units, 0);
    var after := units[run..];
    var acc' := acc + units[..run];
    assert UnitsOfSize(acc', k);
    FinishPacketCases(WriteRle(after) + rest, k, width, height, acc', rows);
    AppendSplit(acc, units, run);
    if run == |units| {
      assert WriteRle(after) + rest == rest;
      assert acc' == acc + units;
    } else {
      WriteRleDecode(after, rest, k, width, height, acc', rows);
      assert acc' + after == acc + units;
    }
  }

  /** The encoded image: each row's compressor output, in row order. */
  function RleImage(lines: seq<seq<Unit>>): seq<uint8> {
    if |lines| == 0 then [] else WriteRle(lines[0]) + RleImage(lines[1..])
  }

  /** Each row of units, as the bytes the decoder hands on. */
  function RowBytes(lines: seq<seq<Unit>>): (r: seq<seq<uint8>>)
    ensures |r| == |lines|
    ensures forall i :: 0 <= i < |lines| ==> r[i] == Flatten(lines[i])
  {
    seq(|lines|, i requires 0 <= i < |lines| => Flatten(lines[i]))
  }

  predicate RowsOf(lines: seq<seq<Unit>>, width: int, k: nat) {
    forall i :: 0 <= i < |lines| ==> |lines[i]| == width && UnitsOfSize(lines[i], k)
  }

  lemma {:induction false} RleImageDecode(
    lines: seq<seq<Unit>>, rest: seq<uint8>, k: nat, width: int, height: int, rows: seq<seq<uint8>>)
    requires 1 <= width && RowsOf(lines, width, k)
    requires |rows| + |lines| <= height
    ensures DecodeRleRows(RleImage(lines) + rest, k, width, height, [], rows)
         == DecodeRleRows(rest, k, width, height, [], rows + RowBytes(lines))
    decreases |lines|
  {
    if |lines| == 0 {
      assert RowBytes(lines) == [];
      assert rows + RowBytes(lines) == rows;
      assert RleImage(lines) + rest == rest;
    } else {
      var tail := RleImage(lines[1..]) + rest;
      assert RleImage(lines) + rest == WriteRle(lines[0]) + tail;
      assert UnitsOfSize(lines[0], k) && |lines[0]| == width;
      assert UnitsOfSize([], k);
      WriteRleDecode(lines[0], tail, k, width, height, [], rows);
      assert [] + lines[0] == lines[0];
      var rows' := rows + [Flatten(lines[0])];
      assert RowsOf(lines[1..], width, k);
      RleImageDecode(lines[1..], rest, k, width, height, rows');
      RowBytesCons(lines);
      AppendAssoc(rows, [Flatten(lines[0])], RowBytes(lines[1..]));
    }
  }

  lemma RowBytesCons(lines: seq<seq<Unit>>)
    requires 0 < |lines|
    ensures RowBytes(lines) == [Flatten(lines[0])] + RowBytes(lines[1..])
  {
  }

  /**
   * Round trip: the packet loop, run for as many rows as were written, reads
   * the compressor's output back as the original rows, in order, and stops
   * exactly at its end.
   */
  lemma RleRoundTrip(lines: seq<seq<Unit>>, rest: seq<uint8>, k: nat, width: int)
    requires 1 <= width && RowsOf(lines, width, k)
    ensures DecodeRleRows(RleImage(lines) + rest, k, width, |lines|, [], []) == Ok((RowBytes(lines), rest))
  {
    RleImageDecode(lines, rest, k, width, |lines|, []);
    assert [] + RowBytes(lines) == RowBytes(lines);
  }

  // ===========================================================================
  // Packet shapes
  // ===========================================================================

  /** Five equal units become the single packet 0x84 (127 + 5) followed by the unit. */
  lemma FiveEqualUnits(u: Unit)
    ensures WriteRle(Copies(u, 5)) == [0x84] + u
  {
    var units := Copies(u, 5);
    WriteRleStep(units);
    assert RepeatScan(units, 0) == 5;
    assert units[5..] == [];
  }

  /** 130 equal units become a 128-unit packet (0xFF) and a 2-unit packet (0x81). */
  lemma HundredThirtyEqualUnits(u: Unit)
    ensures WriteRle(Copies(u, 130)) == [0xFF] + u + [0x81] + u
  {
    var units := Copies(u, 130);
    WriteRleStep(units);
    assert RepeatScan(units, 0) == 130;
    assert units[130..] == [];
  }

  /** One single-unit repeat packet (control byte 0x80) per unit. */
  function SingleRepeats(units: seq<Unit>): seq<uint8> {
    if |units| == 0 then [] else [0x80] + units[0] + SingleRepeats(units[1..])
  }

  /** When no two neighbouring units are equal, every unit gets its own 0x80 packet: no raw packet is formed. */
  lemma {:induction false} DistinctNeighboursGiveSingleRepeats(units: seq<Unit>)
    requires forall i :: 0 < i < |units| ==> units[i] != units[i - 1]
    ensures WriteRle(units) == SingleRepeats(units)
    decreases |units|
  {
    if |units| > 0 {
      WriteRleStep(units);
      var run := RepeatScan(units, 0);
      assert run == 1;
      DistinctNeighboursGiveSingleRepeats(units[1..]);
    }
  }

  /** 200 pairwise distinct one-byte units: 200 packets of two bytes, not a 127/73 raw split. */
  lemma TwoHundredDistinctUnits()
    ensures var units := seq(200, i requires 0 <= i < 200 => [i as uint8]);
      |WriteRle(units)| == 400 && RepeatOnly(WriteRle(units), 1)
  {
    var units := seq(200, i requires 0 <= i < 200 => [i as uint8]);
    assert forall i :: 0 < i < |units| ==> units[i][0] != units[i - 1][0];
    DistinctNeighboursGiveSingleRepeats(units);
    SingleRepeatsLength(units, 1);
    WriteRleOnlyRepeatPackets(units, 1);
  }

  lemma {:induction false} SingleRepeatsLength(units: seq<Unit>, k: nat)
    requires UnitsOfSize(units, k)
    ensures |SingleRepeats(units)| == |units| * (1 + k)
    decreases |units|
  {
    if |units| > 0 {
      SingleRepeatsLength(units[1..], k);
    }
  }

  /**
   * The raw emission, were it ever reached, would be misread: its control
   * byte is the unit count rather than the count minus one, so the decoder
   * takes one unit more than the packet holds.
   */
  lemma RawPacketsOverreadByOne(units: seq<Unit>, more: seq<uint8>, k: nat)
    requires 0 < |units| && UnitsOfSize(units, k) && |more| >= k
    ensures var n := if |units| < 127 then |units| else 127;
      var d := DecodePacket(RawPackets(units) + more, k);
      d.Some? && |d.value.0| == n + 1
  {
    var n := if |units| < 127 then |units| else 127;
    var payload := RawPacketsFirst(units, more, k);
    DecodeRawPacket(n, payload, k);
  }

  /** The first raw packet: control byte min(count, 127), then at least that many units' bytes. */
  lemma RawPacketsFirst(units: seq<Unit>, more: seq<uint8>, k: nat) returns (payload: seq<uint8>)
    requires 0 < |units| && UnitsOfSize(units, k) && |more| >= k
    ensures var n := if |units| < 127 then |units| else 127;
      RawPackets(units) + more == [n as uint8] + payload && |payload| >= (n + 1) * k
  {
    if |units| >= 127 {
      var head := Flatten(units[..127]);
      payload := head + RawPackets(units[127..]) + more;
      assert RawPackets(units) == [127 as uint8] + head + RawPackets(units[127..]);
      AppendAssoc([127 as uint8] + head, RawPackets(units[127..]), more);
      FlattenLength(units[..127], k);
      assert |head| == 127 * k;
      assert |payload| >= 127 * k + k == 128 * k;
    } else {
      var n := |units|;
      payload := Flatten(units) + more;
      assert RawPackets(units) == [n as uint8] + Flatten(units);
      FlattenLength(units, k);
      assert |payload| >= n * k + k == (n + 1) * k;
    }
  }

  /** A raw packet with control byte `c` in 0..127 yields `c + 1` units. */
  lemma DecodeRawPacket(c: uint8, payload: seq<uint8>, k: nat)
    requires c < 128 && |payload| >= (c + 1) * k
    ensures var d := DecodePacket([c] + payload, k); d.Some? && |d.value.0| == c + 1
  {
    DecodePacketSpec([c] + payload, k);
  }
}

=== FILE: roundtrip.dfy ===
/**
 * The encoder and the decoder together: what file `Start` followed by one
 * `WriteLineRaw` per line leaves in a fresh stream, and what the decoder
 * makes of that file.  RLE mode reads the lines back in the order they were
 * written; uncompressed mode reads them back last line first, because the
 * writer fills its slots bottom-up while the header declares a top-left
 * origin.
 */
module RoundTrip {
  import opened Bytes
  import opened Results
  import opened TgaHdr
  import opened Tga
  import opened Layout
  import Rle
  import D = Decoder
  import E = Encoder

  /** A whole encoding session into an empty stream: `Start`, then each line in order. */
  function Encode(config: EncoderConfig, width: int, height: int, rowBytes: nat, prior: PixelLayout,
                  lines: seq<seq<uint8>>): (E.EncoderState, E.Sink)
    requires E.LinesFit(lines, rowBytes)
  {
    var (st, sink) := E.Start(config, width, height, rowBytes, prior, map[], 0);
    E.WriteLines(st, sink, lines)
  }

  /** The file an uncompressed session writes: the header, then the lines' bytes, last line first. */
  function RawFile(config: EncoderConfig, width: int, height: int, rowBytes: nat, lines: seq<seq<uint8>>): seq<uint8>
    requires E.LinesFit(lines, rowBytes)
  {
    HeaderBytes(E.StartHeader(config, width, height)) + Flatten(E.Reverse(E.Truncated(lines, rowBytes)))
  }

  /** The file an RLE session writes: the header, then each line's packets in call order. */
  function RleFile(config: EncoderConfig, width: int, height: int, rowBytes: nat, lines: seq<seq<uint8>>): seq<uint8>
    requires IsSupportedDepth(config.bpp) && E.LinesFit(lines, rowBytes)
  {
    HeaderBytes(E.StartHeader(config, width, height)) + E.RleStream(lines, rowBytes, E.UnitSize(config.bpp))
  }

  // ---------------------------------------------------------------------------
  // What the encoder writes
  // ---------------------------------------------------------------------------

  /** An uncompressed session writes exactly the header and then the slots, and nothing else. */
  lemma EncodeRawWritesFile(config: EncoderConfig, width: int, height: int, rowBytes: nat, prior: PixelLayout,
                            lines: seq<seq<uint8>>)
    requires !config.useRLE && E.LinesFit(lines, rowBytes) && |lines| == height
    ensures var file := RawFile(config, width, height, rowBytes, lines);
      var (st, sink) := Encode(config, width, height, rowBytes, prior, lines);
      && E.Holds(sink, 0, file) && E.Confined(map[], sink, 0, |file|)
      && st.soff == HeaderSize && st.linei == 0
      && st.layout == SelectLayout(config.bpp, config.hasAlpha, prior)
  {
    var (st, sink) := E.Start(config, width, height, rowBytes, prior, map[], 0);
    var hb := HeaderBytes(E.StartHeader(config, width, height));
    var rows := E.Reverse(E.Truncated(lines, rowBytes));
    var hi := HeaderSize + rowBytes * height;
    E.RawPlacement(st, sink, lines, HeaderSize, hi);
    var last := E.WriteLines(st, sink, lines);
    assert last == Encode(config, width, height, rowBytes, prior, lines);
    assert |rows| == height;
    FlattenLength(rows, rowBytes);
    assert |Flatten(rows)| == height * rowBytes == rowBytes * height;
    E.HoldsKept(sink, last.1, 0, hb, HeaderSize, hi);
    E.HoldsAppend(last.1, 0, hb, Flatten(rows));
    E.ConfinedTrans(map[], sink, last.1, 0, HeaderSize, HeaderSize, hi, 0, hi);
  }

  /** The units each RLE-mode line is compressed from. */
  function UnitLines(lines: seq<seq<uint8>>, rowBytes: nat, k: nat): (r: seq<seq<Rle.Unit>>)
    requires 1 <= k <= 4 && E.LinesFit(lines, rowBytes)
    ensures |r| == |lines|
  {
    E.DivMul(rowBytes, k);
    seq(|lines|, j requires 0 <= j < |lines| => E.LineUnits(lines[j], rowBytes / k, k))
  }

  /** The bytes appended by the RLE-mode calls are the compressor's output over the lines' units. */
  lemma {:induction false} RleStreamIsImage(lines: seq<seq<uint8>>, rowBytes: nat, k: nat)
    requires 1 <= k <= 4 && E.LinesFit(lines, rowBytes)
    ensures E.RleStream(lines, rowBytes, k) == Rle.RleImage(UnitLines(lines, rowBytes, k))
    decreases |lines|
  {
    if |lines| > 0 {
      assert E.LinesFit(lines[1..], rowBytes);
      RleStreamIsImage(lines[1..], rowBytes, k);
      assert UnitLines(lines, rowBytes, k)[1..] == UnitLines(lines[1..], rowBytes, k);
    }
  }

  /** An RLE session writes exactly the header and then the packets, and `soff` ends at the end of the file. */
  lemma EncodeRleWritesFile(config: EncoderConfig, width: int, height: int, rowBytes: nat, prior: PixelLayout,
                            lines: seq<seq<uint8>>)
    requires config.useRLE && IsSupportedDepth(config.bpp) && E.LinesFit(lines, rowBytes) && |lines| == height
    ensures var file := RleFile(config, width, height, rowBytes, lines);
      var (st, sink) := Encode(config, width, height, rowBytes, prior, lines);
      && E.Holds(sink, 0, file) && E.Confined(map[], sink, 0, |file|)
      && st.soff == |file| && st.linei == 0
      && st.layout == SelectLayout(config.bpp, config.hasAlpha, prior)
  {
    var (st, sink) := E.Start(config, width, height, rowBytes, prior, map[], 0);
    var hb := HeaderBytes(E.StartHeader(config, width, height));
    var data := E.RleStream(lines, rowBytes, E.UnitSize(config.bpp));
    E.RlePlacement(st, sink, lines);
    var last := E.WriteLines(st, sink, lines);
    assert last == Encode(config, width, height, rowBytes, prior, lines);
    var hi := HeaderSize + |data|;
    E.HoldsKept(sink, last.1, 0, hb, HeaderSize, hi);
    E.HoldsAppend(last.1, 0, hb, data);
    E.ConfinedTrans(map[], sink, last.1, 0, HeaderSize, HeaderSize, hi, 0, hi);
  }

  // ---------------------------------------------------------------------------
  // Reading the file back
  // ---------------------------------------------------------------------------

  /** The header `Start` writes, within the 16-bit ranges, declares what was asked for. */
  lemma StartHeaderFields(config: EncoderConfig, width: int, height: int)
    requires -0x8000 <= width < 0x8000 && 0 <= height < 0x8000 && 0 <= config.bpp < 0x100
    ensures var h := E.StartHeader(config, width, height);
      && h.imageSpec.width == width && h.imageSpec.height == height && h.imageSpec.depth == config.bpp
      && AlphaBits(h.imageSpec.descriptor) == 0
      && D.DescriptorFlip(h.imageSpec.descriptor) == Some(D.FlipNone)
  {
  }

  /**
   * Uncompressed round trip: decoding the file an uncompressed session
   * writes gives the header's geometry and depth, the encoder's layout, no
   * palette, no flip, and the lines' bytes in reverse order.
   */
  lemma RawEndToEnd(config: EncoderConfig, width: int, height: int, rowBytes: nat, prior: PixelLayout,
                    lines: seq<seq<uint8>>)
    requires !config.useRLE && 0 <= config.bpp < 0x100
    requires -0x8000 <= width < 0x8000 && 0 <= height < 0x8000
    requires |lines| == height && E.LinesFit(lines, rowBytes)
    ensures D.Create(true, RawFile(config, width, height, rowBytes, lines), rowBytes, prior)
      == Ok(D.Decoded(width, height, config.bpp, SelectLayout(config.bpp, false, prior), D.NoPalette,
                      Some(D.FlipNone), E.Reverse(E.Truncated(lines, rowBytes))))
  {
    var h := E.StartHeader(config, width, height);
    var rows := E.Reverse(E.Truncated(lines, rowBytes));
    StartHeaderFields(config, width, height);
    TypeCodeRoundTrip(UncompressedTrueColor);
    D.DecodeUncompressedFile(h, rows, rowBytes, prior);
  }

  /** The units of line `j` are its first `rowBytes` bytes, in `k`-byte pieces. */
  lemma UnitLinesRows(lines: seq<seq<uint8>>, width: int, k: nat)
    requires 1 <= k <= 4 && 1 <= width && E.LinesFit(lines, width * k)
    ensures Rle.RowsOf(UnitLines(lines, width * k, k), width, k)
    ensures Rle.RowBytes(UnitLines(lines, width * k, k)) == E.Truncated(lines, width * k)
  {
    E.DivMul(width, k);
    var units := UnitLines(lines, width * k, k);
    forall j | 0 <= j < |lines|
      ensures |units[j]| == width && Rle.UnitsOfSize(units[j], k)
      ensures Flatten(units[j]) == lines[j][..width * k]
    {
    }
  }

  /**
   * RLE round trip: decoding the file an RLE session writes gives the
   * header's geometry and depth, the encoder's layout, no palette, no flip,
   * and the lines' bytes in the order they were written.
   */
  lemma RleEndToEnd(config: EncoderConfig, width: int, height: int, prior: PixelLayout, lines: seq<seq<uint8>>)
    requires config.useRLE && IsSupportedDepth(config.bpp)
    requires 1 <= width < 0x8000 && 0 <= height < 0x8000
    requires |lines| == height && E.LinesFit(lines, width * E.UnitSize(config.bpp))
    ensures var rowBytes := width * E.UnitSize(config.bpp);
      D.Create(true, RleFile(config, width, height, rowBytes, lines), rowBytes, prior)
      == Ok(D.Decoded(width, height, config.bpp, SelectLayout(config.bpp, false, prior), D.NoPalette,
                      Some(D.FlipNone), E.Truncated(lines, rowBytes)))
  {
    var k := E.UnitSize(config.bpp);
    var rowBytes := width * k;
    var h := E.StartHeader(config, width, height);
    var units := UnitLines(lines, rowBytes, k);
    StartHeaderFields(config, width, height);
    TypeCodeRoundTrip(RleTrueColor);
    RleStreamIsImage(lines, rowBytes, k);
    UnitLinesRows(lines, width, k);
    assert h.imageSpec.depth / 8 == k;
    D.DecodeRleFile(h, units, rowBytes, prior);
  }

  /**
   * The two modes disagree on row order: for the same lines, the rows the
   * uncompressed file decodes to are the RLE file's rows reversed, so any
   * image whose first and last lines differ comes back vertically mirrored
   * in one of the two modes.
   */
  lemma RawAndRleRowOrdersDiffer(config: EncoderConfig, width: int, height: int, rowBytes: nat, prior: PixelLayout,
                                 lines: seq<seq<uint8>>)
    requires config.useRLE && IsSupportedDepth(config.bpp) && rowBytes == width * E.UnitSize(config.bpp)
    requires 1 <= width < 0x8000 && 2 <= height < 0x8000
    requires |lines| == height && E.LinesFit(lines, rowBytes)
    requires lines[0][..rowBytes] != lines[height - 1][..rowBytes]
    ensures var raw := D.Create(true, RawFile(SetRle(config, false), width, height, rowBytes, lines), rowBytes, prior);
      var rle := D.Create(true, RleFile(config, width, height, rowBytes, lines), rowBytes, prior);
      && raw.Ok? && rle.Ok?
      && raw.value.rows == E.Reverse(rle.value.rows)
      && raw.value.rows != rle.value.rows
  {
    var truncated := E.Truncated(lines, rowBytes);
    FirstLinesDiffer(lines, rowBytes);
    RawRows(SetRle(config, false), width, height, rowBytes, prior, lines);
    RleRows(config, width, height, rowBytes, prior, lines);
    var raw := D.Create(true, RawFile(SetRle(config, false), width, height, rowBytes, lines), rowBytes, prior);
    var rle := D.Create(true, RleFile(config, width, height, rowBytes, lines), rowBytes, prior);
    RowsMirrored(raw, rle, truncated);
  }

  lemma FirstLinesDiffer(lines: seq<seq<uint8>>, rowBytes: nat)
    requires 2 <= |lines| && E.LinesFit(lines, rowBytes)
    requires lines[0][..rowBytes] != lines[|lines| - 1][..rowBytes]
    ensures E.Reverse(E.Truncated(lines, rowBytes)) != E.Truncated(lines, rowBytes)
  {
    var truncated := E.Truncated(lines, rowBytes);
    assert E.Reverse(truncated)[0] == truncated[|lines| - 1];
  }

  lemma RawRows(config: EncoderConfig, width: int, height: int, rowBytes: nat, prior: PixelLayout,
                lines: seq<seq<uint8>>)
    requires !config.useRLE && 0 <= config.bpp < 0x100
    requires -0x8000 <= width < 0x8000 && 0 <= height < 0x8000
    requires |lines| == height && E.LinesFit(lines, rowBytes)
    ensures var raw := D.Create(true, RawFile(config, width, height, rowBytes, lines), rowBytes, prior);
      raw.Ok? && raw.value.rows == E.Reverse(E.Truncated(lines, rowBytes))
  {
    RawEndToEnd(config, width, height, rowBytes, prior, lines);
  }

  lemma RleRows(config: EncoderConfig, width: int, height: int, rowBytes: nat, prior: PixelLayout,
                lines: seq<seq<uint8>>)
    requires config.useRLE && IsSupportedDepth(config.bpp) && rowBytes == width * E.UnitSize(config.bpp)
    requires 1 <= width < 0x8000 && 0 <= height < 0x8000
    requires |lines| == height && E.LinesFit(lines, rowBytes)
    ensures var rle := D.Create(true, RleFile(config, width, height, rowBytes, lines), rowBytes, prior);
      rle.Ok? && rle.value.rows == E.Truncated(lines, rowBytes)
  {
    RleEndToEnd(config, width, height, prior, lines);
  }

  lemma RowsMirrored<Err>(raw: Result<D.Decoded, Err>, rle: Result<D.Decoded, Err>, truncated: seq<seq<uint8>>)
    requires raw.Ok? && raw.value.rows == E.Reverse(truncated)
    requires rle.Ok? && rle.value.rows == truncated
    requires E.Reverse(truncated) != truncated
    ensures raw.value.rows == E.Reverse(rle.value.rows) && raw.value.rows != rle.value.rows
  {
  }

  /**
   * The layout the encoder prepares agrees with the one the decoder selects
   * for the file it wrote exactly when no alpha channel was requested at a
   * depth that has one: the header `Start` writes always declares zero alpha
   * bits.
   */
  lemma EncoderLayoutMatchesDecoder(config: EncoderConfig, prior: PixelLayout)
    requires IsSupportedDepth(config.bpp)
    ensures SelectLayout(config.bpp, config.hasAlpha, prior) == SelectLayout(config.bpp, false, prior)
            <==> !(config.hasAlpha && (config.bpp == 32 || config.bpp == 16))
  {
  }
}

=== FILE: tga.dfy ===
/**
 * The codec's public vocabulary: image-type codes, the RLE control-byte
 * constants, the origin-corner codes kept in the descriptor byte, and the
 * encoder's configuration with its defaults and setters.
 */
module Tga {
  import opened Bytes
  import opened Results

  // ---------------------------------------------------------------------------
  // Image types
  // ---------------------------------------------------------------------------

  datatype ImageType =
    | NoImageData
    | UncompressedColorMap
    | UncompressedTrueColor
    | UncompressedBlackWhite
    | RleColorMap
    | RleTrueColor
    | RleBlackWhite

  /** The image-type byte stored at offset 2 of the header. */
  function TypeCode(t: ImageType): uint8 {
    match t
    case NoImageData => 0
    case UncompressedColorMap => 1
    case UncompressedTrueColor => 2
    case UncompressedBlackWhite => 3
    case RleColorMap => 9
    case RleTrueColor => 10
    case RleBlackWhite => 11
  }

  /** The image type a header byte names, if any. */
  function ImageTypeOf(b: uint8): (r: Option<ImageType>)
    ensures r.Some? ==> TypeCode(r.value) == b
    ensures r.None? ==> forall t: ImageType :: TypeCode(t) != b
  {
    match b
    case 0 => Some(NoImageData)
    case 1 => Some(UncompressedColorMap)
    case 2 => Some(UncompressedTrueColor)
    case 3 => Some(UncompressedBlackWhite)
    case 9 => Some(RleColorMap)
    case 10 => Some(RleTrueColor)
    case 11 => Some(RleBlackWhite)
    case _ => None
  }

  lemma TypeCodeRoundTrip(t: ImageType)
    ensures ImageTypeOf(TypeCode(t)) == Some(t)
  {
  }

  predicate IsUncompressed(t: ImageType) {
    t.UncompressedColorMap? || t.UncompressedTrueColor? || t.UncompressedBlackWhite?
  }

  predicate IsRle(t: ImageType) {
    t.RleColorMap? || t.RleTrueColor? || t.RleBlackWhite?
  }

  predicate IsBlackWhite(t: ImageType) {
    t.UncompressedBlackWhite? || t.RleBlackWhite?
  }

  /** The run-length-encoded counterpart of an uncompressed image type. */
  function RleVariant(t: ImageType): (r: ImageType)
    requires IsUncompressed(t)
    ensures IsRle(r)
    ensures TypeCode(r) == TypeCode(t) + 8
    ensures IsBlackWhite(r) <==> IsBlackWhite(t)
  {
    match t
    case UncompressedColorMap => RleColorMap
    case UncompressedTrueColor => RleTrueColor
    case UncompressedBlackWhite => RleBlackWhite
  }

  /** The codes split into "no data", three uncompressed codes 1..3, and their RLE twins 9..11. */
  lemma ImageTypeCodes(t: ImageType)
    ensures t.NoImageData? <==> TypeCode(t) == 0
    ensures IsUncompressed(t) <==> 1 <= TypeCode(t) <= 3
    ensures IsRle(t) <==> 9 <= TypeCode(t) <= 11
  {
  }

  // ---------------------------------------------------------------------------
  // RLE control byte
  // ---------------------------------------------------------------------------

  const RepeatCountBit: bv8 := 0x80
  const RepeatCountMask: bv8 := 0x7F

  /** The repeat flag and the count field partition the control byte's bits. */
  lemma ControlBitsPartition()
    ensures RepeatCountBit & RepeatCountMask == 0
    ensures RepeatCountBit | RepeatCountMask == 0xFF
  {
  }

  /** Bit 7 of a control byte: set for a repeat packet, clear for a raw packet. */
  predicate IsRepeatPacket(c: uint8) {
    c >= 128
  }

  /** The low seven bits of a control byte: one less than the number of units the packet yields. */
  function CountField(c: uint8): (n: nat)
    ensures n <= 127
  {
    c % 128
  }

  /**
   * The control byte read with the masks the codec applies: `c & 0x80` is the
   * repeat flag and `c & 0x7F` the count field, and the two make up the byte.
   */
  lemma ControlByteFields(c: bv8)
    ensures IsRepeatPacket(c as int) <==> c & RepeatCountBit != 0
    ensures CountField(c as int) == (c & RepeatCountMask) as int
    ensures c as int == (if IsRepeatPacket(c as int) then 128 else 0) + CountField(c as int)
  {
  }

  // ---------------------------------------------------------------------------
  // Descriptor byte and origin corner
  // ---------------------------------------------------------------------------

  datatype Orientation = BottomLeft | BottomRight | TopLeft | TopRight

  function OrientationCode(o: Orientation): uint8 {
    match o
    case BottomLeft => 0
    case BottomRight => 1
    case TopLeft => 2
    case TopRight => 3
  }

  /** The descriptor byte of an image whose origin is `o` and which has no alpha bits. */
  function DescriptorFor(o: Orientation): (d: uint8)
    ensures OriginField(d) == OrientationCode(o) && AlphaBits(d) == 0
  {
    16 * OrientationCode(o)
  }

  /** The descriptor is the corner code shifted into bits 4..5, as in `TGA_TOP_LEFT << 4`. */
  lemma DescriptorShift(o: Orientation)
    ensures DescriptorFor(o) == ((OrientationCode(o) as bv8) << 4) as int
  {
    match o
    case BottomLeft =>
    case BottomRight =>
    case TopLeft =>
    case TopRight =>
  }

  /** The descriptor the encoder writes. */
  lemma TopLeftDescriptor()
    ensures DescriptorFor(TopLeft) == 0x20
  {
  }

  /** The origin-corner field, bits 4..7 (0..3 name a corner). */
  function OriginField(d: uint8): (n: nat)
    ensures n < 16
  {
    d / 16
  }

  /** The number of alpha bits per pixel, bits 0..3. */
  function AlphaBits(d: uint8): (n: nat)
    ensures n < 16
  {
    d % 16
  }

  /**
   * The two descriptor fields read as the decoder reads them, `descriptor >> 4`
   * and `descriptor & 0x0F`, and the byte rebuilt from them.
   */
  lemma DescriptorFields(d: bv8)
    ensures OriginField(d as int) == (d >> 4) as int
    ensures AlphaBits(d as int) == (d & 0x0F) as int
    ensures d as int == 16 * OriginField(d as int) + AlphaBits(d as int)
  {
  }

  // ---------------------------------------------------------------------------
  // Encoder configuration
  // ---------------------------------------------------------------------------

  /** The user-settable part of the encoder: bits per pixel and three flags. */
  datatype EncoderConfig = EncoderConfig(bpp: int, grayscale: bool, useRLE: bool, hasAlpha: bool)

  /** The encoder constructor; `hasAlpha` has no constructor argument and no setter. */
  function NewEncoderConfig(bpp: int, gs: bool, useRLE: bool): (c: EncoderConfig)
    ensures c.bpp == bpp && c.grayscale == gs && c.useRLE == useRLE
    ensures !c.hasAlpha
  {
    EncoderConfig(bpp, gs, useRLE, false)
  }

  /** The constructor with all its defaults. */
  function DefaultEncoderConfig(): (c: EncoderConfig)
    ensures c.bpp == 32 && !c.grayscale && !c.useRLE && !c.hasAlpha
  {
    NewEncoderConfig(32, false, false)
  }

  function SetBpp(c: EncoderConfig, bpp: int): (r: EncoderConfig)
    ensures r.bpp == bpp
    ensures r.grayscale == c.grayscale && r.useRLE == c.useRLE && r.hasAlpha == c.hasAlpha
  {
    c.(bpp := bpp)
  }

  function SetMono(c: EncoderConfig, gs: bool): (r: EncoderConfig)
    ensures r.grayscale == gs
    ensures r.bpp == c.bpp && r.useRLE == c.useRLE && r.hasAlpha == c.hasAlpha
  {
    c.(grayscale := gs)
  }

  function SetRle(c: EncoderConfig, rle: bool): (r: EncoderConfig)
    ensures r.useRLE == rle
    ensures r.bpp == c.bpp && r.grayscale == c.grayscale && r.hasAlpha == c.hasAlpha
  {
    c.(useRLE := rle)
  }

  /** The setters touch disjoint fields, so they commute, and a second call to the same setter wins. */
  lemma SettersIndependent(c: EncoderConfig, bpp: int, gs: bool, rle: bool, bpp': int)
    ensures SetBpp(SetMono(c, gs), bpp) == SetMono(SetBpp(c, bpp), gs)
    ensures SetBpp(SetRle(c, rle), bpp) == SetRle(SetBpp(c, bpp), rle)
    ensures SetMono(SetRle(c, rle), gs) == SetRle(SetMono(c, gs), rle)
    ensures SetBpp(SetBpp(c, bpp'), bpp) == SetBpp(c, bpp)
  {
  }

  /** No sequence of setter calls can turn alpha on: `hasAlpha` is false in every reachable configuration. */
  lemma SettersKeepAlphaOff(c: EncoderConfig, bpp: int, gs: bool, rle: bool)
    requires !c.hasAlpha
    ensures !SetBpp(c, bpp).hasAlpha && !SetMono(c, gs).hasAlpha && !SetRle(c, rle).hasAlpha
  {
  }
}

=== FILE: tgahdr.dfy ===
/**
 * The packed on-disk structures of a TGA file: the 18-byte header (image ID
 * length, colour-map type, image type, colour-map specification, image
 * specification) and the 26-byte TGA 2.0 footer.  Multi-byte fields are
 * little-endian and the structures carry no padding, so each one is given as
 * an explicit byte image together with its parser.
 */
module TgaHdr {
  import opened Bytes

  const ImageSpecSize: nat := 10
  const ColorMapSpecSize: nat := 5
  const HeaderSize: nat := 18
  const SignatureSize: nat := 18
  const FooterSize: nat := 26

  /** Image specification: origin, signed 16-bit dimensions, bits per pixel and the descriptor byte. */
  datatype ImageSpec = ImageSpec(
    xOrigin: int16,
    yOrigin: int16,
    width: int16,
    height: int16,
    depth: uint8,
    descriptor: uint8)

  /** Colour-map specification: first index, number of entries, bits per entry. */
  datatype ColorMapSpec = ColorMapSpec(firstEntry: uint16, length: uint16, entrySize: uint8)

  datatype Header = Header(
    idLength: uint8,
    colorMap: uint8,
    imageType: uint8,
    colorMapSpec: ColorMapSpec,
    imageSpec: ImageSpec)

  /** TGA 2.0 footer: two file offsets and an 18-character signature. */
  datatype Footer = Footer(
    extensionAreaOffset: uint32,
    developerDirectoryOffset: uint32,
    signature: seq<uint8>)

  // ---------------------------------------------------------------------------
  // Image specification: 10 bytes
  // ---------------------------------------------------------------------------

  function ImageSpecBytes(s: ImageSpec): (r: seq<uint8>)
    ensures |r| == ImageSpecSize
    ensures r[0..2] == Int16Bytes(s.xOrigin) && r[2..4] == Int16Bytes(s.yOrigin)
    ensures r[4..6] == Int16Bytes(s.width) && r[6..8] == Int16Bytes(s.height)
    ensures r[8] == s.depth && r[9] == s.descriptor
  {
    Int16Bytes(s.xOrigin) + Int16Bytes(s.yOrigin) + Int16Bytes(s.width) + Int16Bytes(s.height)
      + [s.depth, s.descriptor]
  }

  function ParseImageSpec(b: seq<uint8>): ImageSpec
    requires |b| == ImageSpecSize
  {
    ImageSpec(Int16Of(b[0], b[1]), Int16Of(b[2], b[3]), Int16Of(b[4], b[5]), Int16Of(b[6], b[7]), b[8], b[9])
  }

  lemma ImageSpecRoundTrip(s: ImageSpec)
    ensures ParseImageSpec(ImageSpecBytes(s)) == s
  {
    Int16RoundTrip(s.xOrigin, 0, 0);
    Int16RoundTrip(s.yOrigin, 0, 0);
    Int16RoundTrip(s.width, 0, 0);
    Int16RoundTrip(s.height, 0, 0);
  }

  lemma ImageSpecBytesRoundTrip(b: seq<uint8>)
    requires |b| == ImageSpecSize
    ensures ImageSpecBytes(ParseImageSpec(b)) == b
  {
    var s := ParseImageSpec(b);
    Int16RoundTrip(0, b[0], b[1]);
    Int16RoundTrip(0, b[2], b[3]);
    Int16RoundTrip(0, b[4], b[5]);
    Int16RoundTrip(0, b[6], b[7]);
    assert b == b[0..2] + b[2..4] + b[4..6] + b[6..8] + [b[8], b[9]];
    assert Int16Bytes(s.xOrigin) == b[0..2] && Int16Bytes(s.yOrigin) == b[2..4];
    assert Int16Bytes(s.width) == b[4..6] && Int16Bytes(s.height) == b[6..8];
  }

  // ---------------------------------------------------------------------------
  // Colour-map specification: 5 bytes
  // ---------------------------------------------------------------------------

  function ColorMapSpecBytes(c: ColorMapSpec): (r: seq<uint8>)
    ensures |r| == ColorMapSpecSize
    ensures r[0..2] == WordBytes(c.firstEntry) && r[2..4] == WordBytes(c.length)
    ensures r[4] == c.entrySize
  {
    WordBytes(c.firstEntry) + WordBytes(c.length) + [c.entrySize]
  }

  function ParseColorMapSpec(b: seq<uint8>): ColorMapSpec
    requires |b| == ColorMapSpecSize
  {
    ColorMapSpec(WordOf(b[0], b[1]), WordOf(b[2], b[3]), b[4])
  }

  lemma ColorMapSpecRoundTrip(c: ColorMapSpec)
    ensures ParseColorMapSpec(ColorMapSpecBytes(c)) == c
  {
    WordRoundTrip(c.firstEntry);
    WordRoundTrip(c.length);
  }

  lemma ColorMapSpecBytesRoundTrip(b: seq<uint8>)
    requires |b| == ColorMapSpecSize
    ensures ColorMapSpecBytes(ParseColorMapSpec(b)) == b
  {
    WordBytesRoundTrip(b[0], b[1]);
    WordBytesRoundTrip(b[2], b[3]);
  }

  // ---------------------------------------------------------------------------
  // Header: 18 bytes
  // ---------------------------------------------------------------------------

  /** The header's byte image: three single bytes, the colour-map spec at 3..8, the image spec at 8..18. */
  function HeaderBytes(h: Header): (r: seq<uint8>)
    ensures |r| == HeaderSize
    ensures r[0] == h.idLength && r[1] == h.colorMap && r[2] == h.imageType
    ensures r[3..8] == ColorMapSpecBytes(h.colorMapSpec)
    ensures r[8..18] == ImageSpecBytes(h.imageSpec)
  {
    [h.idLength, h.colorMap, h.imageType] + ColorMapSpecBytes(h.colorMapSpec) + ImageSpecBytes(h.imageSpec)
  }

  function ParseHeader(b: seq<uint8>): Header
    requires |b| == HeaderSize
  {
    Header(b[0], b[1], b[2], ParseColorMapSpec(b[3..8]), ParseImageSpec(b[8..18]))
  }

  /** Parsing the byte image of any header gives that header back. */
  lemma HeaderRoundTrip(h: Header)
    ensures ParseHeader(HeaderBytes(h)) == h
  {
    ColorMapSpecRoundTrip(h.colorMapSpec);
    ImageSpecRoundTrip(h.imageSpec);
  }

  /** Every 18-byte string is the byte image of the header parsed from it: no byte is padding. */
  lemma HeaderBytesRoundTrip(b: seq<uint8>)
    requires |b| == HeaderSize
    ensures HeaderBytes(ParseHeader(b)) == b
  {
    ColorMapSpecBytesRoundTrip(b[3..8]);
    ImageSpecBytesRoundTrip(b[8..18]);
    assert b == b[..3] + b[3..8] + b[8..18];
  }

  // ---------------------------------------------------------------------------
  // Footer: 26 bytes
  // ---------------------------------------------------------------------------

  predicate ValidFooter(f: Footer) {
    |f.signature| == SignatureSize
  }

  /** The footer's byte image: extension-area offset at 0..4, developer-directory offset at 4..8, signature at 8..26. */
  function FooterBytes(f: Footer): (r: seq<uint8>)
    requires ValidFooter(f)
    ensures |r| == FooterSize
    ensures r[0..4] == DwordBytes(f.extensionAreaOffset)
    ensures r[4..8] == DwordBytes(f.developerDirectoryOffset)
    ensures r[8..] == f.signature
  {
    DwordBytes(f.extensionAreaOffset) + DwordBytes(f.developerDirectoryOffset) + f.signature
  }

  function ParseFooter(b: seq<uint8>): (f: Footer)
    requires |b| == FooterSize
    ensures ValidFooter(f)
  {
    Footer(DwordOf(b[0], b[1], b[2], b[3]), DwordOf(b[4], b[5], b[6], b[7]), b[8..])
  }

  lemma FooterRoundTrip(f: Footer)
    requires ValidFooter(f)
    ensures ParseFooter(FooterBytes(f)) == f
  {
    DwordRoundTrip(f.extensionAreaOffset);
    DwordRoundTrip(f.developerDirectoryOffset);
  }

  lemma FooterBytesRoundTrip(b: seq<uint8>)
    requires |b| == FooterSize
    ensures FooterBytes(ParseFooter(b)) == b
  {
    DwordBytesRoundTrip(b[0], b[1], b[2], b[3]);
    DwordBytesRoundTrip(b[4], b[5], b[6], b[7]);
    assert b == b[0..4] + b[4..8] + b[8..];
  }
}
